=== FILE: README.md ===
# Roblox clothing scraper: the fetch engine and the asset rules, in Dafny

This project models the core of the Roblox clothing scraper. The core has two
parts:

- the resilient fetch engine of `APIHandler`:
  - the retrying `_get` and its sleep decision;
  - the `fetch_json` filter on it;
  - the separate `fetch_text` loop;
  - the cursor loop of `fetch_paginated_data`;
- the small rules built on it:
  - `get_between` and the six-step `download_image` pipeline of `RobloxAssetDownloader`;
  - the input handling of `main`;
  - the `AssetType` classes and their factory;
  - `GroupHandler.fetch_all_clothing_ids`.

The model proves properties of each part.

The network is a script: a finite `seq<Outcome>`. The i-th request gets the
i-th outcome, and every request past the end fails to connect (a
`ClientError`). Each loop returns a `Run` with three parts: what it returned,
how many requests it issued, and the durations it slept, in order.
`RATE_LIMIT_SLEEP` is the parameter `base`.

Python behaviour that matters to the results is written out:

- **JSON values:** a dict is its member list in insertion order.
- **Truthiness:** how `in`, `[]`, `.get`, `str` and iteration behave on each kind of JSON value.
- **Exceptions:** `TypeError` and `AttributeError` are a `Py` result.

Modules, one per file:

| module | file | content |
|---|---|---|
| `Optional` | `optional.dfy` | the option type |
| `Strings` | `strings.dfy` | `re.sub(r"[^0-9]", "", s)`, substring search, ASCII `lower` and `capitalize`, `str(int)` |
| `PyJson` | `pyjson.dfy` | JSON values under Python semantics |
| `Collaborators` | `collaborators.dfy` | URL templates; the image handed to `FileHandler.save_image` |
| `ApiHandler` | `api_handler.dfy` | `_is_json_response`, the sleep decision, `_get`, `fetch_json`, `fetch_text` |
| `ApiProperties` | `api_properties.dfy` | the backoff grows; 5xx is not slept on; `_get` ignores Content-Type; `_get` and `fetch_text` disagree on 404 |
| `Paginator` and `Pagination` | `paginator.dfy` | the cursor loop, and what `fetch_paginated_data` promises |
| `PaginationLoops` | `pagination_examples.dfy` | a repeated cursor is not detected |
| `Downloader` | `roblox_asset_downloader.dfy` | `get_between`, `fetch`, `download_image`, `main` |
| `AssetType` | `asset_type.dfy` | the asset classes and `create_asset` |
| `GroupHandler` | `group_handler.dfy` | `fetch_all_clothing_ids` |
| `CatalogExample` | `catalog_example.dfy` | a three-page catalog worked through |

Three behaviours of the code are modelled as written, although a reader of
the code would expect otherwise in each case:

- **Content type.** Line 137 of `src/api_handler.py` calls the coroutine
  `_is_json_response` without `await`. The coroutine object is truthy, so every
  200 answer goes to `response.json()`. One would expect the header to be
  checked first and a non-JSON body to be returned as text. Instead, a 200
  answer that is not labelled as JSON makes `json()` raise `ContentTypeError`,
  which is a `ClientError`. That attempt is then slept on and retried. See
  `ApiProperties.GetLoopIgnoresContentType` and
  `ApiProperties.HtmlAnswerNeverReturned`.
- **Server errors.** One would expect a 5xx answer to be backed off like a
  429. Only 429 and `ClientError` are slept on; a 5xx answer is retried at
  once (`ApiProperties.ServerErrorsNotSlept`).
- **Repeated cursor.** One would expect a cursor seen before to end the loop.
  `fetch_paginated_data` has no guard against a repeated cursor. It stops only
  when the answers stop
  (`PaginationLoops.RepeatedCursorNotDetected`).

In `download_image`, an overlay type other than `"Shirt"` or `"Pants"` is not
refused. The image is saved without a template.

## Model

| member | source | states |
|---|---|---|
| Strings.Digits | src/roblox_asset_downloader.py:120 | the kept characters are all digits and no more than the input |
| Strings.DigitsKeepsExactlyDigits | src/roblox_asset_downloader.py:120 | every digit of the input is kept as often as it occurs, and nothing else is kept |
| Strings.DigitsAppend | src/asset_type.py:28 | filtering a concatenation is concatenating the filtered parts, so the digits keep their original order |
| Strings.DigitsFixedPoint | src/roblox_asset_downloader.py:120 | the filter leaves a string unchanged exactly when it is all digits |
| Strings.Contains | src/api_handler.py:81 | Python's `needle in hay` on strings: true iff the needle occurs at some position |
| Strings.LowerEqIff | src/asset_type.py:135 | two strings lower-case to the same string iff they agree letter by letter, ignoring ASCII case |
| Strings.ParseNatToString | src/api_handler.py:248 | `str(n)` of a natural reads back as `n` |
| Strings.IntToString | src/api_handler.py:248 | `str(limit)` is non-empty; for a non-negative limit it is all digits and reads back as the limit; a negative one starts with `-` |
| Strings.Lower | src/asset_type.py:135 | `lower()` keeps the length, leaves no upper-case letter, keeps every other character and moves each upper-case letter to its lower-case counterpart |
| Strings.Capitalize | src/asset_type.py:62 | `capitalize()` keeps the length and the word up to case, starts with no lower-case letter and leaves no upper-case letter after the first |
| PyJson.Lookup | src/api_handler.py:256 | a key is found iff the dict has it, and the value found is bound to that key |
| PyJson.Truthy | src/api_handler.py:252-262 | Python truthiness of a decoded value: `None`, `False`, `0`, `""`, `[]` and `{}` are false and every other value is true |
| PyJson.In | src/group_handler.py:52 | `"id" in asset` is key membership on a dict, substring occurrence on a string and element membership on a list; it raises `TypeError` for anything else |
| PyJson.Subscript | src/group_handler.py:52 | `asset["id"]` succeeds iff the value is a dict that has the key, and gives the value bound to it; otherwise `KeyError` on a dict and `TypeError` on anything else |
| PyJson.Iterate | src/api_handler.py:259 | `extend` accepts exactly lists, strings and dicts, and a list contributes its items |
| PyJson.IterateSpec | src/api_handler.py:259 | a string contributes its one-character strings and a dict its keys, in order |
| PyJson.Str | src/group_handler.py:52 | `str` of a string is the string, of anything else its `repr` |
| PyJson.StrOfInt | src/group_handler.py:52 | `str` of a non-negative integer id is decimal digits that read back as the id; a negative one starts with `-` |
| PyJson.Repr | src/group_handler.py:52 | `repr` is never empty: `None` for null, quotes around a string, brackets around a list, braces around a dict |
| ApiHandler.IsJsonResponse | src/api_handler.py:77-81 | true iff `application/json` occurs in the Content-Type header; a missing header counts as empty and gives false |
| ApiHandler.Pow | src/api_handler.py:95 | `RATE_LIMIT_SLEEP ** attempt` is positive for a positive base |
| ApiHandler.PowAdd | src/api_handler.py:95 | `base ** (i + j)` is `base ** i * base ** j` |
| ApiHandler.PowStrictlyIncreasing | src/api_handler.py:95 | with a base above one, `base ** i < base ** j` whenever `i < j`, derived from `PowAdd` |
| ApiHandler.StatusSleep | src/api_handler.py:95-113 | an answered attempt sleeps iff its status is 429, for `base ** attempt` seconds |
| ApiHandler.GetLoop | src/api_handler.py:128-154 | a returned payload comes from a request the script answered, issued from the current attempt on |
| ApiHandler.GetLoopSpec | src/api_handler.py:128-154 | from any attempt: stop at the first 200 with a body and return that body; otherwise spend the whole budget; sleep exactly after the attempts that back off |
| ApiHandler.Get | src/api_handler.py:117-154 | a payload is returned only after at least one answered request |
| ApiHandler.GetSpec | src/api_handler.py:128-154 | no request when `max_retries <= 0`; at most `max_retries` requests; a body is returned iff some attempt within budget succeeds, and it is the first such body (a `null` body, which `_get` returns as `None` at once, is the body `Some(JNull)`); nothing is issued after it; `None` only after the whole budget; sleeps `base ** attempt` exactly after each `ClientError` or 429 |
| ApiHandler.FetchJson | src/api_handler.py:162-176 | the `_get` result when it is a non-empty dict, `None` otherwise; same requests and sleeps as `_get` |
| ApiHandler.TextLoop | src/api_handler.py:183-216 | each sleep is `2 ** attempt` after a 429 or `ClientError`; a 200 gives its text; any other answer gives `None` and stops; otherwise the budget runs out |
| ApiHandler.FetchText | src/api_handler.py:178-216 | `fetch_text` from attempt 0: no request without budget; sleeps `2 ** j` after backing-off attempt `j`; the first answer that does not back off decides the result |
| ApiProperties.BackoffIncreasing | src/api_handler.py:142-151 | with a base above one, the sleeps of a stretch of attempts strictly increase |
| ApiProperties.GetSleepsIncrease | src/api_handler.py:112-151 | the sleeps of `_get` strictly increase when `RATE_LIMIT_SLEEP` is above one |
| ApiProperties.TextSleepsIncrease | src/api_handler.py:189-213 | the sleeps of `fetch_text` strictly increase |
| ApiProperties.AnsweredAttemptsNotSlept | src/api_handler.py:131-135 | attempts answered with a status other than 200 and 429 add no sleep |
| ApiProperties.ServerErrorsNotSlept | src/api_handler.py:128-135 | a run of 5xx answers spends the whole budget of `_get` without one sleep |
| ApiProperties.GetLoopIgnoresContentType | src/api_handler.py:137-140 | two scripts that differ only in Content-Type headers make `_get` behave identically |
| ApiProperties.HtmlAnswerNeverReturned | src/api_handler.py:137-151 | a 200 HTML answer is not JSON by the header test, yet `_get` returns nothing and sleeps once |
| ApiProperties.NotFoundRetriedOnlyByGet | src/api_handler.py:183-203 | on a 404 followed by a 200, `_get` goes on to the body; `fetch_text` gives up after the 404 |
| Paginator.NextCursorSpec | src/api_handler.py:260 | `response.get("nextPageCursor")` is the value bound to that key when the dict has it, and `None` otherwise |
| Paginator.Classify | src/api_handler.py:256-263 | stop when the response is missing, not a dict or lacks `"data"`; raise when `"data"` cannot be iterated; otherwise take its items and go on iff `nextPageCursor` is truthy |
| Paginator.PaginateLoop | src/api_handler.py:251-263 | the first request sends the round's parameters; at most one more `fetch_json` call than pages; no more pages than script entries |
| Pagination.PaginateCursors | src/api_handler.py:251-260 | the first request sends the given parameters, and each later request sends them with `cursor` set to the previous page's truthy `nextPageCursor` |
| Pagination.PaginateItems | src/api_handler.py:256-263 | the result is the pages' `data` items in page order; a normal return after a last page means that page had no truthy cursor; a `TypeError` escapes iff the last page's `data` cannot be iterated, and then no round follows that page |
| Pagination.PaginateServed | src/api_handler.py:251-263 | each page is what `fetch_json` answered in its round, each round reading the script where the last one stopped; a round is followed by another iff its page has iterable `data` and a truthy cursor; a run without a final page ended on an answer that is not a dict with `"data"`; requests and sleeps are those of the rounds, in order |
| Pagination.PaginateRequests | src/api_handler.py:255 | the loop issues at most the fetch budget times the number of rounds |
| Pagination.ParamKept | src/api_handler.py:248-253 | every request of a chained run carries each parameter of the first other than `cursor`, so `limit` and the caller's parameters are kept |
| Pagination.FirstCall | src/api_handler.py:248 | the first request's parameters are the caller's keys plus `limit`, with `limit` bound to `str(limit)` |
| Pagination.FirstCallKeeps | src/api_handler.py:248 | setting `limit` leaves every other parameter of the caller unchanged |
| Pagination.JsonFetcher | src/api_handler.py:255 | `fetch_json` returns a payload only after consuming a script entry |
| Pagination.FetchPaginatedData | src/api_handler.py:241-266 | the first request has `limit = str(limit)`; the cursors are chained; every request keeps the limit; the items are collected in order, and a page whose `data` cannot be iterated raises `TypeError`; each page is the `fetch_json` answer of its round and the loop stops on the first answer that is not a dict with `"data"`; the request count is bounded by `retries` per round |
| PaginationLoops.FirstAnswerFetched | src/api_handler.py:162-176 | a first answer of 200 with a non-empty dict is what `fetch_json` returns, after one request |
| PaginationLoops.SamePageFetched | src/api_handler.py:162-176 | repeated 200 answers with a non-empty dict give that dict, and an exhausted script gives nothing |
| PaginationLoops.SamePageEveryRound | src/api_handler.py:251-263 | a page with a truthy cursor, served `n` times, is taken `n` times |
| PaginationLoops.RepeatedCursorNotDetected | src/api_handler.py:251-263 | `n` answers carrying the same page: the same cursor is sent `n` times, the page is taken `n` times, and the call returns normally |
| CatalogExample.ClassifyPage | src/api_handler.py:256-263 | a page `{"data": items, "nextPageCursor": c}` continues iff `c` is truthy, with `items` as its items |
| CatalogExample.NextRound | src/api_handler.py:251-263 | a round answered with a page that has a cursor contributes that page, then the loop continues with the cursor set |
| CatalogExample.LastRound | src/api_handler.py:256-263 | a round answered with a page without a cursor ends the loop with that page's items added |
| CatalogExample.TwoRounds | src/api_handler.py:251-263 | two pages linked by a cursor give both pages' items, in two requests, without a sleep |
| CatalogExample.ThreeRounds | src/api_handler.py:251-263 | three pages linked by two cursors give all items in page order, in three requests, without a sleep |
| CatalogExample.CatalogRunIsLoop | src/group_handler.py:44-46 | the catalog request starts from `sortOrder=Ascend` and `limit=10` with the default budget |
| CatalogExample.ThreePages | src/group_handler.py:43-54 | a three-page catalog yields all records in order, sends both cursors in turn, and gives the ids of all records that have one |
| Downloader.ShortestEnd | src/roblox_asset_downloader.py:31 | the lazy `(.*?)end`: the first `end` before a line break, and none if there is no such `end` |
| Downloader.Search | src/roblox_asset_downloader.py:31 | `re.search`: the leftmost position where the pattern matches, with the shortest group there |
| Downloader.GetBetween | src/roblox_asset_downloader.py:28-33 | the result never contains a line break |
| Downloader.GetBetweenSpec | src/roblox_asset_downloader.py:28-33 | `""` when no match; otherwise `start + result + end` occurs in the source at the leftmost match, with the shortest group there |
| Downloader.Fetch | src/roblox_asset_downloader.py:35-45 | the body of a 200 answer, `None` for any other status or a `ClientError` |
| Downloader.NonEmptyPage | src/roblox_asset_downloader.py:70-86 | a fetched page passes `if not html` exactly when it is neither `None` nor `""` |
| Downloader.TemplateFile | src/roblox_asset_downloader.py:101-106 | `"Shirt"` selects `shirt_template.png`, `"Pants"` selects `pants_template.png`, nothing else selects a file |
| Collaborators.UrlTemplate.Format | src/roblox_asset_downloader.py:65-84 | `.format(...)` puts the value where the placeholder was and keeps the text on both sides |
| Collaborators.FormatInjective | src/roblox_asset_downloader.py:65-84 | two values fill a template to the same URL only when they are equal |
| Downloader.DownloadImage | src/roblox_asset_downloader.py:61-114 | the base URL is always requested; the image-location URL, filled with the extracted asset id, is requested iff the HTML page and the asset id are truthy; the image is saved iff the HTML page, the asset id, the location page and the image are all truthy; the image URL is whatever was extracted; the file is `<clothing_id>.png`; the image is composited iff a template was selected |
| Downloader.Strip | src/roblox_asset_downloader.py:127 | `strip()` gives the stretch of the input left after the spaces in front and behind, which neither starts nor ends with a space |
| Downloader.StripUnpadded | src/roblox_asset_downloader.py:127 | a string that neither starts nor ends with a space, such as `"Shirt"`, is left as it is |
| Downloader.OverlayChoice | src/roblox_asset_downloader.py:126-128 | an overlay is kept iff the answer is exactly `"Shirt"` or `"Pants"`, and then unchanged |
| Downloader.Main | src/roblox_asset_downloader.py:117-133 | invalid input iff no digit remains; otherwise the download starts with exactly the digits, and with an overlay iff the answer is exactly `"Shirt"` or `"Pants"`, which is then passed on unchanged |
| Downloader.MainThenDownload | src/roblox_asset_downloader.py:101-133 | a download `main` starts saves `<digits>.png`, composed with the shirt template for `Shirt`, the pants template for `Pants`, and unchanged for any other answer |
| Downloader.AcceptedOverlaySelectsTemplate | src/roblox_asset_downloader.py:101-131 | every overlay `main` accepts selects a template in `download_image` |
| Downloader.PaddedOverlayDropped | src/roblox_asset_downloader.py:126-128 | padded or lower-case overlay answers become `None` |
| AssetType.OverlayTag | src/asset_type.py:97-110 | the base class has no overlay type; shirts and pants have tags that `capitalize()` turns into `"Shirt"` and `"Pants"` |
| AssetType.OverlayPath | src/asset_type.py:67 | the template path is under `src/assets`, unless the file name is itself absolute |
| AssetType.GetOverlayTemplate | src/asset_type.py:51-74 | a template iff there is an overlay type, a non-empty template name for its capitalized form, and an existing file; the template is that file opened |
| AssetType.NewAsset | src/asset_type.py:27-38 | the id is the digits of the URL; the other attributes are missing iff there are none; otherwise URL, base URL, template and image are set |
| AssetType.OverlayImage | src/asset_type.py:76-94 | `AttributeError` iff the constructor returned early; otherwise `None` unless both image and template are there, and then their composite |
| AssetType.SaveAssetImage | src/asset_type.py:40-49 | `AttributeError` iff the constructor returned early; otherwise the image is saved as `<asset_id>.png` iff there is one |
| AssetType.SaveAfterNew | src/asset_type.py:27-49 | saving a freshly built asset raises `AttributeError` iff its URL has no digits; otherwise the image, if any, is saved as `<digits of the URL>.png` |
| AssetType.OverlayShirtAfterNew | src/asset_type.py:27-94 | a freshly built shirt overlays its image with the opened `Shirt` template iff that entry is non-empty and the file exists, and gives `None` otherwise |
| AssetType.OverlayPantsAfterNew | src/asset_type.py:27-94 | the same for pants and the `Pants` template |
| AssetType.CreateAsset | src/asset_type.py:119-144 | a created asset is a shirt or pants built from the same URL and image |
| AssetType.CreateAssetCaseInsensitive | src/asset_type.py:135-144 | an asset is created iff the type is `shirt` or `pants` in any case, and it is a shirt iff the type spells `shirt` |
| AssetType.AssetIdIsDigits | src/asset_type.py:28-31 | a URL whose only digits are the id yields that id and a fully built asset |
| GroupHandler.CatalogRun | src/group_handler.py:44-46 | every catalog request carries `sortOrder=Ascend` and `limit=10`, the first one exactly these |
| GroupHandler.CatalogFirstCall | src/group_handler.py:44-46 | the first catalog request is exactly `sortOrder=Ascend` with `limit` set to `str(10)` |
| GroupHandler.CatalogCalls | src/group_handler.py:44-46 | every request of a run chained from the first catalog request carries `sortOrder=Ascend` and `limit=10` |
| GroupHandler.Comprehension | src/group_handler.py:52 | a comprehension keeps at most one value per record |
| GroupHandler.ComprehensionRaise | src/group_handler.py:52 | a comprehension raises iff its per-record step raises on some record |
| GroupHandler.ComprehensionError | src/group_handler.py:52 | when every exception the per-record step raises is `e`, so is every exception the comprehension raises |
| GroupHandler.ComprehensionAppend | src/group_handler.py:52 | the comprehension over two lists in a row is the first's result then the second's: the first error wins, otherwise the lists are joined |
| GroupHandler.RecordId | src/group_handler.py:52 | a dict gives `str` of its `"id"` or nothing; a record that is no dict gives nothing when `"id" in` it is false and raises otherwise; only `TypeError` is raised |
| GroupHandler.ClothingIds | src/group_handler.py:52 | no more ids than records; the only exception is `TypeError` |
| GroupHandler.ClothingIdsRaise | src/group_handler.py:52 | the comprehension raises iff some record raises |
| GroupHandler.ClothingIdsOfDicts | src/group_handler.py:52 | on dicts nothing raises, and the result is `str(id)` of each record that has an `"id"`, in order |
| GroupHandler.ClothingIdsAppend | src/group_handler.py:52 | the ids of two record lists in a row are the ids of each, joined; the first error wins |
| GroupHandler.FetchAllClothingIds | src/group_handler.py:33-54 | `None` iff the catalog comes back empty; a non-empty catalog whose records do not raise gives their ids; it raises iff the catalog run or a record does, and only `TypeError` escapes |
| GroupHandler.CatalogOfDicts | src/group_handler.py:44-54 | a non-empty catalog of dicts never raises and gives `str(id)` of each record that has an `"id"`, in order |
| GroupHandler.NoIdsGiveEmptyList | src/group_handler.py:48-54 | a non-empty catalog with no `"id"` anywhere gives `[]`, not `None` |
| GroupHandler.NoIdNotKept | src/group_handler.py:52 | dicts without `"id"` are all skipped |

## Left out

- aiohttp sessions, `get_session`, `close`, the SSL context and real HTTP: requests are answered by the script.
- Real time is left out: `asyncio.sleep` durations are recorded, not waited, and there is no concurrency.
- Side effects that do not change results are left out: logging, `STATUS_MAP` messages, `print`, `time.time()` and the never-read `failed_attempts` list.
- A body that `response.json()` cannot decode raises a `ValueError` that escapes `_get`. This is not modelled: a scripted answer's `json` is either a decoded value or a `ContentTypeError`.
- ApiHandler.TextLoop: `await response.text()` raises `UnicodeDecodeError` on a body that does not decode (src/api_handler.py:188). That is not a `ClientError` and escapes `fetch_text`; a scripted answer's text always decodes.
- Downloader.Fetch: the same `UnicodeDecodeError` from `await response.text()` escapes `fetch` (src/roblox_asset_downloader.py:42); it is not modelled.
- `fetch_image` in both files is one unretried GET. Its result is a parameter of `DownloadImage`.
- Downloader.DownloadImage: the `image` parameter stands for a decoded image. The `fetch_image` at src/roblox_asset_downloader.py:56 passes the raw bytes of the body to `Image.open`, which takes bytes for a file path and raises; that error is not a `ClientError` and escapes `download_image`, so as written the overlay and save steps are not reached. The model describes the download with a working image fetch.
- ApiHandler.GetLoop: an aiohttp timeout raises `asyncio.TimeoutError`, which is not a `ClientError` and escapes `_get` (src/api_handler.py:142). An `Outcome` is only an answer or a `ClientError`, so this path is not modelled.
- ApiHandler.TextLoop: the same `asyncio.TimeoutError` escapes `fetch_text` (src/api_handler.py:204); not modelled.
- Downloader.Fetch: the same `asyncio.TimeoutError` escapes `fetch` (src/roblox_asset_downloader.py:43); not modelled.
- Paginator.PaginateLoop: a truthy cursor that is not a string or number (`true`, a list or a dict) is sent as a query parameter, which aiohttp refuses with a `TypeError` on the next request. The model sends any truthy cursor and goes on.
- ApiHandler.Pow: `RATE_LIMIT_SLEEP` is a natural number here; a fractional constant is not covered.
- PIL image handling (`Image.open`, `convert("RGBA")`, `alpha_composite`) is left out. These are the parameters `open` and `compose`.
- Other outside state is also left out:
  - `FileHandler.save_image` is the returned `SavedImage` record;
  - `Path.exists` is a predicate parameter;
  - `input()` is the parameters of `Main`.
- The values of the `constants` module are parameters: `RATE_LIMIT_SLEEP`, `CLOTHING_TEMPLATES`, `ROUTES`, the URL templates and the delimiters.
- The URL formatting of the group catalog is left out. The URL is not part of any request the model records.
- `fetch_paginated_data` writes `limit` and `cursor` into the caller's dict. The model records each request's parameters but not this aliasing.
- `Image.open` raising on a missing template file in `download_image` is not modelled.
- Downloader.GetBetween: models `re.search` only for delimiters without regular-expression metacharacters.
- Strings.Lower: ASCII letters only. Python's `str.lower` also maps non-ASCII letters.
- Strings.Capitalize: ASCII letters only.
- Downloader.Strip: removes what `str.strip()` removes from ASCII text (whitespace and the separators 0x1c to 0x1f), not the Unicode spaces it also removes. It is only applied to `"Shirt"` or `"Pants"`, so results do not change.
- PyJson.Repr: strings inside containers are quoted with `'` but never escaped, and no quote style is chosen as Python would.
- JSON numbers with a fraction are not modelled: a JSON number is an integer here.
- JSON objects are member lists with distinct keys, as a Python dict is. Duplicate keys in a body are not modelled.

=== FILE: api_handler.dfy ===
/**
 The resilient fetch engine of `APIHandler`: the retrying `_get`, the
 `fetch_json` filter on it, the separate `fetch_text` loop, and the cursor loop
 of `fetch_paginated_data`.

 The network is a script: the i-th request issued gets the i-th outcome of a
 finite sequence, and every request beyond its end fails to connect (an
 `aiohttp.ClientError`). Sleeping is recorded as data: each run returns its
 result, the number of requests it issued and the durations it slept.
 */
module ApiHandler {
  import opened Optional
  import opened Strings
  import opened PyJson

  /** The page size `fetch_paginated_data` uses unless told otherwise. */
  const DefaultLimit: int := 10

  /** The attempt budget of `_get`, `fetch_json`, `fetch_text` and `fetch_paginated_data` unless told otherwise. */
  const DefaultRetries: int := 5

  /**
   One answered GET: status, Content-Type header, what `response.text()`
   yields, and what `response.json()` yields, `None` when it raises
   `aiohttp.ContentTypeError` (a `ClientError`) because the body is not
   labelled as JSON. A body `null` decodes to `Some(JNull)`: the Python `None`
   that `_get` then returns at once is `Some(JNull)` in this model, which
   `fetch_json` turns into `None` like every other non-dict.
   */
  datatype Response = Response(status: int, contentType: Option<string>, text: string, json: Option<Json>)

  /**
   One request attempt: an answer, or an `aiohttp.ClientError` raised while
   sending the request or reading its body.
   */
  datatype Outcome = Answered(response: Response) | ClientError

  /** The outcome of the `i`-th request; beyond the end of the script no connection can be made. */
  function At(script: seq<Outcome>, i: nat): Outcome {
    if i < |script| then script[i] else ClientError
  }

  /** A finished run of one of the loops: what it returned, how many requests it issued, how long it slept each time. */
  datatype Run<+T> = Run(result: T, requests: nat, sleeps: seq<nat>)

  function Max(a: int, b: int): int {
    if a < b then b else a
  }

  /** Python's `base ** e` on naturals. */
  function Pow(base: nat, e: nat): (r: nat)
    ensures base > 0 ==> r > 0
  {
    if e == 0 then 1 else base * Pow(base, e - 1)
  }

  /** `x * (y * z) == y * (x * z)`. */
  lemma MulSwap(x: int, y: int, z: int)
    ensures x * (y * z) == y * (x * z)
  {
  }

  /** `base ** (i + j) == base ** i * base ** j`. */
  lemma {:induction false} PowAdd(base: nat, i: nat, j: nat)
    ensures Pow(base, i + j) == Pow(base, i) * Pow(base, j)
    decreases j
  {
    if j > 0 {
      PowAdd(base, i, j - 1);
      var a, b := Pow(base, i), Pow(base, j - 1);
      assert Pow(base, i + j) == base * Pow(base, i + (j - 1));
      MulSwap(base, a, b);
    }
  }

  /** A factor of at least two at least doubles: `x * y >= 2 * x` when `y >= 2`. */
  lemma MulAtLeastTwice(x: nat, y: nat)
    requires y >= 2
    ensures x * y >= 2 * x
  {
    assert x * y == x * (y - 2) + 2 * x;
  }

  /** With a base above one, later attempts wait strictly longer: `base ** j` is `base ** i` times at least `base`. */
  lemma PowStrictlyIncreasing(base: nat, i: nat, j: nat)
    requires 1 < base && i < j
    ensures Pow(base, i) < Pow(base, j)
  {
    var d := j - i;
    PowAdd(base, i, d);
    var rest := Pow(base, d - 1);
    assert Pow(base, d) == base * rest;
    MulAtLeastTwice(rest, base);
    assert Pow(base, d) >= 2;
    MulAtLeastTwice(Pow(base, i), Pow(base, d));
  }

  /** `_is_json_response`: whether the Content-Type header (missing counts as `""`) mentions `application/json`. */
  function IsJsonResponse(contentType: Option<string>): (r: bool)
    ensures r <==> exists i :: OccursAt("application/json", contentType.GetOr(""), i)
    ensures contentType.None? ==> !r
  {
    Contains("application/json", contentType.GetOr(""))
  }

  /** The sleep `_handle_response_status` performs for an answered attempt: only 429 waits, `base ** attempt` seconds. */
  function StatusSleep(status: int, attempt: nat, base: nat): (r: Option<nat>)
    ensures r.Some? <==> status == 429
    ensures r.Some? ==> r.value == Pow(base, attempt)
  {
    if status == 429 then Some(Pow(base, attempt)) else None
  }

  /** An attempt of `_get` that returns its payload: a 200 answer whose body decodes. */
  predicate Succeeded(o: Outcome) {
    o.Answered? && o.response.status == 200 && o.response.json.Some?
  }

  /**
   An attempt of `_get` that is followed by a sleep: a `ClientError` while
   connecting or while decoding a 200 body, or a 429 answer.
   */
  predicate BacksOff(o: Outcome) {
    o.ClientError? || o.response.status == 429 || (o.response.status == 200 && o.response.json.None?)
  }

  /** An attempt of `fetch_text` that is followed by a sleep: a `ClientError` or a 429 answer. */
  predicate TextBacksOff(o: Outcome) {
    o.ClientError? || o.response.status == 429
  }

  /**
   The sleeps that attempts `lo` up to `hi - 1` cause: `base ** j` for every
   attempt `j` that backs off, in attempt order.
   */
  function Backoff(script: seq<Outcome>, lo: nat, hi: nat, base: nat): seq<nat>
    decreases hi - lo
  {
    if hi <= lo then []
    else (if BacksOff(At(script, lo)) then [Pow(base, lo)] else []) + Backoff(script, lo + 1, hi, base)
  }

  /** The attempts of `_get` from `attempt` on; `requests` counts attempts from 0. */
  function GetLoop(script: seq<Outcome>, attempt: nat, maxRetries: int, base: nat): (r: Run<Option<Json>>)
    ensures attempt <= r.requests
    ensures r.result.Some? ==> attempt < r.requests <= |script|
    decreases maxRetries - attempt
  {
    if maxRetries <= attempt then
      Run(None, attempt, [])
    else
      match At(script, attempt)
      case ClientError =>
        var rest := GetLoop(script, attempt + 1, maxRetries, base);
        rest.(sleeps := [Pow(base, attempt)] + rest.sleeps)
      case Answered(response) =>
        if response.status != 200 then
          var rest := GetLoop(script, attempt + 1, maxRetries, base);
          var slept := StatusSleep(response.status, attempt, base);
          rest.(sleeps := (if slept.Some? then [slept.value] else []) + rest.sleeps)
        else
          // `_is_json_response` is called without `await`: the coroutine is truthy, so the JSON branch is always taken.
          match response.json
          case Some(body) => Run(Some(body), attempt + 1, [])
          case None =>
            // `response.json()` raised a `ClientError`: the handler sleeps and retries.
            var rest := GetLoop(script, attempt + 1, maxRetries, base);
            rest.(sleeps := [Pow(base, attempt)] + rest.sleeps)
  }

  /**
   From `attempt` on, `_get` stops at the first 200 and returns its body, or
   spends the whole budget; it sleeps exactly after the attempts that back off.
   */
  lemma {:induction false} GetLoopSpec(script: seq<Outcome>, attempt: nat, maxRetries: int, base: nat)
    ensures var r := GetLoop(script, attempt, maxRetries, base);
            && r.requests <= Max(attempt, maxRetries)
            && (r.result.Some? ==>
                  && Succeeded(At(script, r.requests - 1))
                  && r.result == At(script, r.requests - 1).response.json
                  && (forall j :: attempt <= j < r.requests - 1 ==> !Succeeded(At(script, j))))
            && (r.result.None? ==>
                  && r.requests == Max(attempt, maxRetries)
                  && (forall j :: attempt <= j < r.requests ==> !Succeeded(At(script, j))))
            && r.sleeps == Backoff(script, attempt, r.requests, base)
    decreases maxRetries - attempt
  {
    if attempt < maxRetries && !Succeeded(At(script, attempt)) {
      GetLoopSpec(script, attempt + 1, maxRetries, base);
    }
  }

  /** `_get(session, url, params, max_retries)`. */
  function Get(script: seq<Outcome>, maxRetries: int, base: nat): (r: Run<Option<Json>>)
    ensures r.result.Some? ==> 0 < r.requests <= |script|
  {
    GetLoop(script, 0, maxRetries, base)
  }

  /**
   `_get` issues at most `max_retries` requests (none when that is not
   positive), returns the body of the first 200 answer and issues nothing
   after it (a `null` body, Python's `None`, is the payload `Some(JNull)`
   here), returns `None` only after spending the whole budget, and sleeps
   `base ** attempt` exactly after the attempts that raise `ClientError` or
   are answered 429.
   */
  lemma GetSpec(script: seq<Outcome>, maxRetries: int, base: nat)
    ensures var r := Get(script, maxRetries, base);
            && (maxRetries <= 0 ==> r == Run(None, 0, []))
            && r.requests <= Max(0, maxRetries)
            && (r.result.Some? <==> exists i :: 0 <= i < maxRetries && Succeeded(At(script, i)))
            && (r.result.Some? ==>
                  && Succeeded(At(script, r.requests - 1))
                  && r.result == At(script, r.requests - 1).response.json
                  && (forall j :: 0 <= j < r.requests - 1 ==> !Succeeded(At(script, j))))
            && (r.result.None? ==> r.requests == Max(0, maxRetries))
            && r.sleeps == Backoff(script, 0, r.requests, base)
  {
    GetLoopSpec(script, 0, maxRetries, base);
  }

  /** `fetch_json`: the `_get` payload when it is a non-empty dict, otherwise `None`. */
  function FetchJson(script: seq<Outcome>, retries: int, base: nat): (r: Run<Option<Json>>)
    ensures r.requests == Get(script, retries, base).requests <= Max(0, retries)
    ensures r.sleeps == Get(script, retries, base).sleeps
    ensures r.result.Some? ==> r.result.value.JObj? && Truthy(r.result.value)
    ensures r.result.Some? ==> r.result == Get(script, retries, base).result && 0 < r.requests <= |script|
    ensures (var g := Get(script, retries, base).result;
             g.Some? && g.value.JObj? && Truthy(g.value) ==> r.result == g)
  {
    var got := Get(script, retries, base);
    GetSpec(script, retries, base);
    if got.result.Some? && Truthy(got.result.value) && got.result.value.JObj? then got
    else got.(result := None)
  }

  /** The attempts of `fetch_text` from `attempt` on: 429 and `ClientError` wait `2 ** attempt`, anything else but 200 gives up. */
  function TextLoop(script: seq<Outcome>, attempt: nat, retries: int): (r: Run<Option<string>>)
    ensures attempt <= r.requests <= Max(attempt, retries)
    ensures forall j :: 0 <= j < |r.sleeps| ==> r.sleeps[j] == Pow(2, attempt + j) && TextBacksOff(At(script, attempt + j))
    ensures || r.requests == attempt + |r.sleeps|
            || (r.requests == attempt + |r.sleeps| + 1 && !TextBacksOff(At(script, r.requests - 1)))
    ensures r.requests == attempt + |r.sleeps| ==> r.result.None? && r.requests == Max(attempt, retries)
    ensures r.requests == attempt + |r.sleeps| + 1 ==>
              r.result == (var o := At(script, r.requests - 1);
                           if o.response.status == 200 then Some(o.response.text) else None)
    decreases retries - attempt
  {
    if retries <= attempt then
      Run(None, attempt, [])
    else
      match At(script, attempt)
      case ClientError =>
        var rest := TextLoop(script, attempt + 1, retries);
        rest.(sleeps := [Pow(2, attempt)] + rest.sleeps)
      case Answered(response) =>
        if response.status == 200 then Run(Some(response.text), attempt + 1, [])
        else if response.status == 429 then
          var rest := TextLoop(script, attempt + 1, retries);
          rest.(sleeps := [Pow(2, attempt)] + rest.sleeps)
        else Run(None, attempt + 1, [])
  }

  /** `fetch_text(url, retries)`. */
  function FetchText(script: seq<Outcome>, retries: int): (r: Run<Option<string>>)
    ensures retries <= 0 ==> r == Run(None, 0, [])
    ensures r.requests <= Max(0, retries)
    ensures forall j :: 0 <= j < |r.sleeps| ==> r.sleeps[j] == Pow(2, j) && TextBacksOff(At(script, j))
    ensures || r.requests == |r.sleeps|
            || (r.requests == |r.sleeps| + 1 && !TextBacksOff(At(script, r.requests - 1)))
    ensures r.requests == |r.sleeps| ==> r.result.None? && r.requests == Max(0, retries)
    ensures r.requests == |r.sleeps| + 1 ==>
              r.result == (var o := At(script, r.requests - 1);
                           if o.response.status == 200 then Some(o.response.text) else None)
  {
    TextLoop(script, 0, retries)
  }
}

=== FILE: api_properties.dfy ===
/**
 Consequences of the retry policies of `_get` and `fetch_text`: the backoff
 grows, server errors are not waited on, `_get` never looks at the content type
 of a 200 answer, and the two loops disagree on a 404.
 */
module ApiProperties {
  import opened Optional
  import opened PyJson
  import opened Strings
  import opened ApiHandler

  ghost predicate StrictlyIncreasing(s: seq<nat>) {
    forall i, j :: 0 <= i < j < |s| ==> s[i] < s[j]
  }

  /**
   With a base above one, the sleeps of attempts `lo` up to `hi - 1` strictly
   increase, and each is at least `base ** lo`.
   */
  lemma {:induction false} BackoffIncreasing(script: seq<Outcome>, lo: nat, hi: nat, base: nat)
    requires 1 < base
    ensures StrictlyIncreasing(Backoff(script, lo, hi, base))
    ensures forall k :: 0 <= k < |Backoff(script, lo, hi, base)| ==> Pow(base, lo) <= Backoff(script, lo, hi, base)[k]
    decreases hi - lo
  {
    if lo < hi {
      BackoffIncreasing(script, lo + 1, hi, base);
      PowStrictlyIncreasing(base, lo, lo + 1);
      var head := if BacksOff(At(script, lo)) then [Pow(base, lo)] else [];
      var rest := Backoff(script, lo + 1, hi, base);
      assert Backoff(script, lo, hi, base) == head + rest;
    }
  }

  /** With `RATE_LIMIT_SLEEP` above one, each sleep of `_get` is longer than the one before. */
  lemma GetSleepsIncrease(script: seq<Outcome>, maxRetries: int, base: nat)
    requires 1 < base
    ensures StrictlyIncreasing(Get(script, maxRetries, base).sleeps)
  {
    GetSpec(script, maxRetries, base);
    BackoffIncreasing(script, 0, Get(script, maxRetries, base).requests, base);
  }

  /** `fetch_text` waits `2 ** attempt`, so its sleeps increase too. */
  lemma TextSleepsIncrease(script: seq<Outcome>, retries: int)
    ensures StrictlyIncreasing(FetchText(script, retries).sleeps)
  {
    var s := FetchText(script, retries).sleeps;
    forall i, j | 0 <= i < j < |s|
      ensures s[i] < s[j]
    {
      PowStrictlyIncreasing(2, i, j);
    }
  }

  /** Attempts answered with anything but 200 or 429 add no sleep, whatever their status. */
  lemma {:induction false} AnsweredAttemptsNotSlept(script: seq<Outcome>, lo: nat, hi: nat, base: nat)
    requires forall j :: lo <= j < hi ==> At(script, j).Answered? && At(script, j).response.status !in {200, 429}
    ensures Backoff(script, lo, hi, base) == []
    decreases hi - lo
  {
    if lo < hi {
      AnsweredAttemptsNotSlept(script, lo + 1, hi, base);
    }
  }

  /** A run of 5xx answers makes `_get` spend its budget without sleeping once. */
  lemma ServerErrorsNotSlept(script: seq<Outcome>, maxRetries: int, base: nat)
    requires forall j :: 0 <= j < maxRetries ==> At(script, j).Answered? && 500 <= At(script, j).response.status < 600
    ensures Get(script, maxRetries, base) == Run(None, Max(0, maxRetries), [])
  {
    GetSpec(script, maxRetries, base);
    AnsweredAttemptsNotSlept(script, 0, Max(0, maxRetries), base);
  }

  /** Two scripts that differ at most in the Content-Type headers of their answers. */
  ghost predicate SameButContentType(a: seq<Outcome>, b: seq<Outcome>) {
    && |a| == |b|
    && forall i :: 0 <= i < |a| ==>
         && a[i].ClientError? == b[i].ClientError?
         && (a[i].Answered? ==>
               && a[i].response.status == b[i].response.status
               && a[i].response.json == b[i].response.json)
  }

  /**
   Because `_is_json_response` is never awaited, `_get` takes the JSON branch
   for every 200 answer: the Content-Type header matters only through whether
   `response.json()` succeeds. In this model that outcome is the separate
   `json` field of a response, so the lemma records the modelling of line 137
   rather than a fact that needed discovering: `GetLoop` never reads
   `contentType`.
   */
  lemma {:induction false} GetLoopIgnoresContentType(a: seq<Outcome>, b: seq<Outcome>, attempt: nat, maxRetries: int, base: nat)
    requires SameButContentType(a, b)
    ensures GetLoop(a, attempt, maxRetries, base) == GetLoop(b, attempt, maxRetries, base)
    decreases maxRetries - attempt
  {
    if attempt < maxRetries {
      GetLoopIgnoresContentType(a, b, attempt + 1, maxRetries, base);
      if attempt < |a| {
        assert a[attempt].ClientError? == b[attempt].ClientError?;
      }
    }
  }

  /**
   A 200 HTML page is never returned as text: `_is_json_response` would say
   no, but the JSON branch is taken anyway, `response.json()` raises, and the
   attempt is slept on like a failed connection.
   */
  lemma HtmlAnswerNeverReturned(text: string, base: nat)
    ensures var script := [Answered(Response(200, Some("text/html"), text, None))];
            && !IsJsonResponse(script[0].response.contentType)
            && Get(script, 1, base) == Run(None, 1, [1])
  {
  }

  /** The same 404-then-200 script: `_get` retries past the 404, `fetch_text` gives up on it. */
  lemma NotFoundRetriedOnlyByGet(body: Json, text: string, base: nat)
    ensures var script := [Answered(Response(404, None, "", None)), Answered(Response(200, Some("application/json"), text, Some(body)))];
            && Get(script, DefaultRetries, base) == Run(Some(body), 2, [])
            && FetchText(script, DefaultRetries) == Run(None, 1, [])
  {
    var script := [Answered(Response(404, None, "", None)), Answered(Response(200, Some("application/json"), text, Some(body)))];
    assert At(script, 0).response.status == 404 && At(script, 1).response.status == 200;
  }
}

=== FILE: asset_type.dfy ===
/**
 `AssetType` and its `ShirtAsset` and `PantsAsset` subclasses: an asset built
 from a URL and a downloaded image, its overlay template looked up by clothing
 type, and `AssetTypeFactory.create_asset`, which picks the subclass by name.

 The template table, the file-system test of `Path.exists`, `Image.open` and
 `Image.alpha_composite` are parameters.
 */
module AssetType {
  import opened Optional
  import opened Strings
  import opened PyJson
  import opened Collaborators

  /** The class of an asset: the abstract base, `ShirtAsset` or `PantsAsset`. */
  datatype Kind = Base | Shirt | Pants

  /** The class attribute `overlay_type`. */
  function OverlayTag(kind: Kind): (tag: Option<string>)
    ensures tag.None? <==> kind.Base?
    ensures kind.Shirt? ==> Capitalize(tag.value) == "Shirt"
    ensures kind.Pants? ==> Capitalize(tag.value) == "Pants"
  {
    match kind
    case Base => None
    case Shirt =>
      CapitalizedShirt();
      Some("shirt")
    case Pants =>
      CapitalizedPants();
      Some("pants")
  }

  /** The `CLOTHING_TEMPLATES` key of a shirt. */
  lemma CapitalizedShirt()
    ensures Capitalize("shirt") == "Shirt"
  {
    CapitalizeLowerWord("shirt");
    assert "shirt"[1..] == "hirt";
  }

  /** The `CLOTHING_TEMPLATES` key of pants. */
  lemma CapitalizedPants()
    ensures Capitalize("pants") == "Pants"
  {
    CapitalizeLowerWord("pants");
    assert "pants"[1..] == "ants";
  }

  /** What the template lookup reads from outside: `CLOTHING_TEMPLATES`, `Path.exists` and `Image.open`. */
  datatype Env<Img> = Env(templates: map<string, string>, fileExists: string -> bool, open: string -> Img)

  /** `Path("src", "assets", filename)`: a file name that is itself an absolute path replaces the folder. */
  function OverlayPath(filename: string): (path: string)
    ensures filename != [] && filename[0] == '/' ==> path == filename
    ensures !(filename != [] && filename[0] == '/') ==> path == "src/assets/" + filename
  {
    if filename != [] && filename[0] == '/' then filename else "src/assets/" + filename
  }

  /**
   `get_overlay_template()`: nothing without an overlay type, without a
   non-empty template file name for the capitalized type, or without that file
   under `src/assets`; otherwise the opened file.
   */
  function GetOverlayTemplate<Img>(kind: Kind, env: Env<Img>): (t: Option<Img>)
    ensures t.Some? <==>
              && OverlayTag(kind).Some?
              && Capitalize(OverlayTag(kind).value) in env.templates
              && env.templates[Capitalize(OverlayTag(kind).value)] != ""
              && env.fileExists(OverlayPath(env.templates[Capitalize(OverlayTag(kind).value)]))
    ensures t.Some? ==> t.value == env.open(OverlayPath(env.templates[Capitalize(OverlayTag(kind).value)]))
  {
    match OverlayTag(kind)
    case None => None
    case Some(tag) =>
      var key := Capitalize(tag);
      if key !in env.templates || env.templates[key] == "" then None
      else
        var path := OverlayPath(env.templates[key]);
        if env.fileExists(path) then Some(env.open(path)) else None
  }

  /** The attributes `__init__` sets after the id check. */
  datatype Fields<Img> = Fields(assetUrl: string, baseUrl: string, template: Option<Img>, image: Option<Img>)

  /**
   An `AssetType` object: its class, its `asset_id`, and the remaining
   attributes, which are missing when `__init__` returned early.
   */
  datatype Asset<Img> = Asset(kind: Kind, assetId: string, fields: Option<Fields<Img>>)

  /**
   `AssetType.__init__(asset_url, asset_image)`: the id is the digits of the
   URL; with no digits the constructor returns before setting anything else.
   `route` is the `base_asset` entry of `ROUTES`.
   */
  function NewAsset<Img>(kind: Kind, assetUrl: string, image: Option<Img>, env: Env<Img>, route: UrlTemplate): (a: Asset<Img>)
    ensures a.kind == kind && a.assetId == Digits(assetUrl)
    ensures a.fields.None? <==> Digits(assetUrl) == ""
    ensures a.fields.Some? ==> a.fields.value == Fields(assetUrl, route.Format(a.assetId), GetOverlayTemplate(kind, env), image)
  {
    var assetId := Digits(assetUrl);
    if assetId == "" then Asset(kind, assetId, None)
    else Asset(kind, assetId, Some(Fields(assetUrl, route.Format(assetId), GetOverlayTemplate(kind, env), image)))
  }

  /**
   `overlay_image()`: the composite of the image and the template when both
   are there, `None` when either is missing; an object whose constructor
   returned early has no `asset_image` and raises `AttributeError`.
   */
  function OverlayImage<Img>(a: Asset<Img>, compose: (Img, Img) -> Img): (r: Py<Option<Img>>)
    ensures r.Raised? <==> a.fields.None?
    ensures r.Raised? ==> r.exc == AttributeError
    ensures r.Ok? ==> (r.value.Some? <==> a.fields.value.image.Some? && a.fields.value.template.Some?)
    ensures r.Ok? && r.value.Some? ==> r.value.value == compose(a.fields.value.image.value, a.fields.value.template.value)
  {
    match a.fields
    case None => Raised(AttributeError)
    case Some(f) =>
      if f.image.None? then Ok(None)
      else if f.template.None? then Ok(None)
      else Ok(Some(compose(f.image.value, f.template.value)))
  }

  /**
   `save_asset_image()`: saves the image as `<asset_id>.png` when there is
   one, does nothing otherwise, and raises `AttributeError` on an object whose
   constructor returned early.
   */
  function SaveAssetImage<Img>(a: Asset<Img>): (r: Py<Option<SavedImage<Img>>>)
    ensures r.Raised? <==> a.fields.None?
    ensures r.Raised? ==> r.exc == AttributeError
    ensures r.Ok? ==> (r.value.Some? <==> a.fields.value.image.Some?)
    ensures r.Ok? && r.value.Some? ==> r.value.value == SavedImage(a.fields.value.image.value, a.assetId + ".png")
  {
    match a.fields
    case None => Raised(AttributeError)
    case Some(f) =>
      match f.image
      case None => Ok(None)
      case Some(img) => Ok(Some(SavedImage(img, a.assetId + ".png")))
  }

  /**
   Saving a freshly built asset: `AttributeError` when its URL has no digits,
   otherwise the image, when there is one, under `<digits of the URL>.png`.
   */
  lemma SaveAfterNew<Img>(kind: Kind, assetUrl: string, image: Option<Img>, env: Env<Img>, route: UrlTemplate)
    ensures Digits(assetUrl) == "" ==> SaveAssetImage(NewAsset(kind, assetUrl, image, env, route)) == Raised(AttributeError)
    ensures Digits(assetUrl) != "" && image.None? ==> SaveAssetImage(NewAsset(kind, assetUrl, image, env, route)) == Ok(None)
    ensures Digits(assetUrl) != "" && image.Some? ==>
              SaveAssetImage(NewAsset(kind, assetUrl, image, env, route)) == Ok(Some(SavedImage(image.value, Digits(assetUrl) + ".png")))
  {
  }

  /**
   Overlaying a freshly built shirt: the image composed with the file the
   `Shirt` entry of the template table names, when that entry is non-empty and
   the file exists under `src/assets`; nothing otherwise.
   */
  lemma OverlayShirtAfterNew<Img>(assetUrl: string, img: Img, env: Env<Img>, route: UrlTemplate, compose: (Img, Img) -> Img)
    requires Digits(assetUrl) != ""
    ensures var r := OverlayImage(NewAsset(Shirt, assetUrl, Some(img), env, route), compose);
            if "Shirt" in env.templates && env.templates["Shirt"] != "" && env.fileExists(OverlayPath(env.templates["Shirt"]))
            then r == Ok(Some(compose(img, env.open(OverlayPath(env.templates["Shirt"])))))
            else r == Ok(None)
  {
    assert Capitalize(OverlayTag(Shirt).value) == "Shirt";
  }

  /** The same for pants, with the `Pants` entry of the table. */
  lemma OverlayPantsAfterNew<Img>(assetUrl: string, img: Img, env: Env<Img>, route: UrlTemplate, compose: (Img, Img) -> Img)
    requires Digits(assetUrl) != ""
    ensures var r := OverlayImage(NewAsset(Pants, assetUrl, Some(img), env, route), compose);
            if "Pants" in env.templates && env.templates["Pants"] != "" && env.fileExists(OverlayPath(env.templates["Pants"]))
            then r == Ok(Some(compose(img, env.open(OverlayPath(env.templates["Pants"])))))
            else r == Ok(None)
  {
    assert Capitalize(OverlayTag(Pants).value) == "Pants";
  }

  /** `AssetTypeFactory.create_asset(asset_type, asset_url, asset_img)`. */
  function CreateAsset<Img>(assetType: string, assetUrl: string, image: Option<Img>, env: Env<Img>, route: UrlTemplate): (a: Option<Asset<Img>>)
    ensures a.Some? ==> a.value == NewAsset(a.value.kind, assetUrl, image, env, route) && !a.value.kind.Base?
  {
    var lower := Lower(assetType);
    if lower == "shirt" then Some(NewAsset(Shirt, assetUrl, image, env, route))
    else if lower == "pants" then Some(NewAsset(Pants, assetUrl, image, env, route))
    else None
  }

  /**
   The factory's choice is case-insensitive: a shirt for any spelling of
   `shirt`, pants for any spelling of `pants`, nothing for anything else.
   */
  lemma CreateAssetCaseInsensitive<Img>(assetType: string, assetUrl: string, image: Option<Img>, env: Env<Img>, route: UrlTemplate)
    ensures CreateAsset(assetType, assetUrl, image, env, route).Some? <==>
              SameIgnoringCase(assetType, "shirt") || SameIgnoringCase(assetType, "pants")
    ensures CreateAsset(assetType, assetUrl, image, env, route).Some? ==>
              (CreateAsset(assetType, assetUrl, image, env, route).value.kind.Shirt? <==> SameIgnoringCase(assetType, "shirt"))
  {
    LowerEqIff(assetType, "shirt");
    LowerEqIff(assetType, "pants");
    assert Lower("shirt") == "shirt" && Lower("pants") == "pants";
  }

  /**
   A URL whose only digits are the id itself, such as
   `https://www.roblox.com/catalog/<id>/name`, yields that id and a fully built
   object.
   */
  lemma AssetIdIsDigits<Img>(kind: Kind, prefix: string, id: string, suffix: string, image: Option<Img>, env: Env<Img>, route: UrlTemplate)
    requires Digits(prefix) == "" && Digits(suffix) == "" && id != "" && Digits(id) == id
    ensures NewAsset(kind, prefix + id + suffix, image, env, route).assetId == id
    ensures NewAsset(kind, prefix + id + suffix, image, env, route).fields.Some?
  {
    UrlDigits(prefix, id, suffix);
  }

  /** The digits of `prefix + id + suffix` are those of `id` when neither end holds any. */
  lemma UrlDigits(prefix: string, id: string, suffix: string)
    requires Digits(prefix) == "" && Digits(suffix) == "" && Digits(id) == id
    ensures Digits(prefix + id + suffix) == id
  {
    DigitsAppend(prefix + id, suffix);
    DigitsAppend(prefix, id);
    assert Digits(prefix + id) == id;
  }
}

=== FILE: catalog_example.dfy ===
/**
 A worked catalog: three pages, linked by two non-empty cursors, the last one
 without a cursor, give the ids of all records in page order.
 */
module CatalogExample {
  import opened Optional
  import opened PyJson
  import opened ApiHandler
  import opened Paginator
  import opened Pagination
  import opened PaginationLoops
  import opened GroupHandler
  import Strings

  /** A page `{"data": records, "nextPageCursor": cursor}`. */
  function Page(records: seq<Json>, cursor: Json): Json {
    JObj([("data", JArr(records)), ("nextPageCursor", cursor)])
  }

  /** A page with a cursor is followed by another round, one without ends the loop. */
  lemma ClassifyPage(records: seq<Json>, cursor: Json)
    ensures Classify(Some(Page(records, cursor))) ==
              if Truthy(cursor) then NextPage(Page(records, cursor), records, cursor)
              else LastPage(Page(records, cursor), records)
  {
    var members := [("data", JArr(records)), ("nextPageCursor", cursor)];
    assert Lookup(members, "data") == Some(JArr(records));
    assert members[1..] == [("nextPageCursor", cursor)];
    assert Lookup(members, "nextPageCursor") == Some(cursor);
  }

  /** The run of a loop whose first round was answered, in one request, with `page`, ahead of the rest. */
  function Prepend(call: Params, page: Json, more: Pages): Pages {
    Pages(more.result, [call] + more.calls, [page] + more.pages, 1 + more.requests, more.sleeps)
  }

  /** A round answered at once with a page that has a cursor: that page, then the run with the cursor set. */
  lemma NextRound(fetch: Fetcher, call: Params, acc: seq<Json>, script: seq<Outcome>, items: seq<Json>, k: string)
    requires ConsumesScript(fetch) && k != "" && fetch(script) == Run(Some(Page(items, JStr(k))), 1, [])
    ensures PaginateLoop(fetch, call, acc, script)
            == Prepend(call, Page(items, JStr(k)), PaginateLoop(fetch, call["cursor" := JStr(k)], acc + items, script[1..]))
  {
    ClassifyPage(items, JStr(k));
    var more := PaginateLoop(fetch, call["cursor" := JStr(k)], acc + items, script[1..]);
    assert [] + more.sleeps == more.sleeps;
  }

  /** A round answered at once with a page that has no cursor: the loop stops after it. */
  lemma LastRound(fetch: Fetcher, call: Params, acc: seq<Json>, script: seq<Outcome>, items: seq<Json>)
    requires ConsumesScript(fetch) && fetch(script) == Run(Some(Page(items, JNull)), 1, [])
    ensures PaginateLoop(fetch, call, acc, script) == Pages(Ok(acc + items), [call], [Page(items, JNull)], 1, [])
  {
    ClassifyPage(items, JNull);
  }

  /** Three pages answered one after the other, linked by the cursors `k1` and `k2`, the last with none. */
  function Catalog(a: seq<Json>, b: seq<Json>, c: seq<Json>, k1: string, k2: string): seq<Outcome> {
    [Ok200(Page(a, JStr(k1))), Ok200(Page(b, JStr(k2))), Ok200(Page(c, JNull))]
  }

  /** The catalog run is the cursor loop from `CatalogCall` with the default retry budget. */
  lemma CatalogRunIsLoop(base: nat, script: seq<Outcome>)
    ensures CatalogRun(base, script) == PaginateLoop(JsonFetcher(DefaultRetries, base), CatalogCall, [], script)
  {
    CatalogFirstCall();
  }

  /** Two rounds, answered at once, the first with a cursor and the second without. */
  lemma TwoRounds(fetch: Fetcher, call: Params, acc: seq<Json>, script: seq<Outcome>, b: seq<Json>, c: seq<Json>, k: string)
    requires ConsumesScript(fetch) && k != "" && |script| == 2
    requires fetch(script) == Run(Some(Page(b, JStr(k))), 1, [])
    requires fetch(script[1..]) == Run(Some(Page(c, JNull)), 1, [])
    ensures PaginateLoop(fetch, call, acc, script)
            == Pages(Ok(acc + b + c), [call, call["cursor" := JStr(k)]], [Page(b, JStr(k)), Page(c, JNull)], 2, [])
  {
    LastRound(fetch, call["cursor" := JStr(k)], acc + b, script[1..], c);
    NextRound(fetch, call, acc, script, b, k);
  }

  /** Three rounds, each answered at once, the first two with a cursor and the third without. */
  lemma ThreeRounds(fetch: Fetcher, call: Params, acc: seq<Json>, script: seq<Outcome>,
                    a: seq<Json>, b: seq<Json>, c: seq<Json>, k1: string, k2: string)
    requires ConsumesScript(fetch) && k1 != "" && k2 != "" && |script| == 3
    requires fetch(script) == Run(Some(Page(a, JStr(k1))), 1, [])
    requires fetch(script[1..]) == Run(Some(Page(b, JStr(k2))), 1, [])
    requires fetch(script[2..]) == Run(Some(Page(c, JNull)), 1, [])
    ensures PaginateLoop(fetch, call, acc, script)
            == Pages(Ok(acc + a + b + c), [call, call["cursor" := JStr(k1)], call["cursor" := JStr(k1)]["cursor" := JStr(k2)]],
                     [Page(a, JStr(k1)), Page(b, JStr(k2)), Page(c, JNull)], 3, [])
  {
    var c2 := call["cursor" := JStr(k1)];
    assert script[1..][1..] == script[2..];
    TwoRounds(fetch, c2, acc + a, script[1..], b, c, k2);
    var more := PaginateLoop(fetch, c2, acc + a, script[1..]);
    assert more == Pages(Ok(acc + a + b + c), [c2, c2["cursor" := JStr(k2)]], [Page(b, JStr(k2)), Page(c, JNull)], 2, []);
    NextRound(fetch, call, acc, script, a, k1);
    assert PaginateLoop(fetch, call, acc, script) == Prepend(call, Page(a, JStr(k1)), more);
    assert [call] + more.calls == [call, c2, c2["cursor" := JStr(k2)]];
    assert [Page(a, JStr(k1))] + more.pages == [Page(a, JStr(k1)), Page(b, JStr(k2)), Page(c, JNull)];
  }

  /**
   Three catalog pages are fetched in three requests without a sleep, the
   cursors are sent in turn, and the ids of all records come out in page order.
   */
  lemma ThreePages(base: nat, a: seq<Json>, b: seq<Json>, c: seq<Json>, k1: string, k2: string)
    requires k1 != "" && k2 != ""
    requires forall i :: 0 <= i < |a + b + c| ==> (a + b + c)[i].JObj?
    ensures CatalogRun(base, Catalog(a, b, c, k1, k2)).result == Ok(a + b + c)
    ensures CatalogRun(base, Catalog(a, b, c, k1, k2)).requests == 3
    ensures CatalogRun(base, Catalog(a, b, c, k1, k2)).sleeps == []
    ensures CatalogRun(base, Catalog(a, b, c, k1, k2)).calls
            == [CatalogCall, CatalogCall["cursor" := JStr(k1)], CatalogCall["cursor" := JStr(k1)]["cursor" := JStr(k2)]]
    ensures FetchAllClothingIds(base, Catalog(a, b, c, k1, k2))
            == if a + b + c == [] then Ok(None) else Ok(Some(IdStrings(DictsWithId(a + b + c))))
  {
    var script := Catalog(a, b, c, k1, k2);
    var fetch := JsonFetcher(DefaultRetries, base);
    FirstAnswerFetched(DefaultRetries, base, Page(a, JStr(k1)), script);
    FirstAnswerFetched(DefaultRetries, base, Page(b, JStr(k2)), script[1..]);
    FirstAnswerFetched(DefaultRetries, base, Page(c, JNull), script[2..]);
    CatalogRunIsLoop(base, script);
    var none: seq<Json> := [];
    assert none + a == a;
    ThreeRounds(fetch, CatalogCall, none, script, a, b, c, k1, k2);
    var calls := [CatalogCall, CatalogCall["cursor" := JStr(k1)], CatalogCall["cursor" := JStr(k1)]["cursor" := JStr(k2)]];
    var pages := [Page(a, JStr(k1)), Page(b, JStr(k2)), Page(c, JNull)];
    assert CatalogRun(base, script) == Pages(Ok(a + b + c), calls, pages, 3, []);
    ClothingIdsOfDicts(a + b + c);
  }
}

=== FILE: collaborators.dfy ===
/**
 Shapes of the external collaborators the scraper talks to: URL templates from
 the configuration and the file writes of the persistence service.
 */
module Collaborators {

  /** A configured URL template with one placeholder, such as `https://host/{clothing_id}/x`. */
  datatype UrlTemplate = UrlTemplate(prefix: string, suffix: string) {

    /** `template.format(placeholder=value)`: the value stands where the placeholder was, the rest is kept. */
    function Format(value: string): (url: string)
      ensures |url| == |prefix| + |value| + |suffix|
      ensures url[..|prefix|] == prefix
      ensures url[|prefix|..|prefix| + |value|] == value
      ensures url[|prefix| + |value|..] == suffix
    {
      prefix + value + suffix
    }
  }

  /** Filling a template is one-to-one: two values give the same URL only when they are equal. */
  lemma FormatInjective(t: UrlTemplate, a: string, b: string)
    ensures t.Format(a) == t.Format(b) <==> a == b
  {
    if t.Format(a) == t.Format(b) {
      assert |a| == |b|;
      assert a == t.Format(a)[|t.prefix|..|t.prefix| + |a|];
    }
  }

  /** One call of `FileHandler.save_image(image, filename)`. */
  datatype SavedImage<+Img> = SavedImage(image: Img, filename: string)
}

=== FILE: group_handler.dfy ===
/**
 `GroupHandler.fetch_all_clothing_ids`: page through a group's catalog, sorted
 ascending, and keep `str(asset["id"])` of every record that has an `"id"`.
 */
module GroupHandler {
  import opened Optional
  import opened Strings
  import opened PyJson
  import opened ApiHandler
  import opened Paginator
  import opened Pagination

  /** The parameters the catalog request starts from. */
  const CatalogParams: Params := map["sortOrder" := JStr("Ascend")]

  /** The parameters of the first catalog request: `sortOrder=Ascend` and `limit=10`. */
  const CatalogCall: Params := map["sortOrder" := JStr("Ascend"), "limit" := JStr("10")]

  /** The first catalog request: `sortOrder=Ascend` and `limit` set to `str(10)`. */
  lemma CatalogFirstCall()
    ensures FirstCall(CatalogParams, DefaultLimit) == CatalogCall
  {
    assert NatToString(10) == NatToString(1) + [DigitChar(0)];
    assert IntToString(DefaultLimit) == "10";
  }

  /** The `fetch_paginated_data(url, params={"sortOrder": "Ascend"})` call, with every default left in place. */
  function CatalogRun(base: nat, script: seq<Outcome>): (r: Pages)
    ensures 1 <= |r.calls| && |r.pages| <= |r.calls| <= |r.pages| + 1
    ensures r.calls[0] == CatalogCall
    ensures forall k :: 0 <= k < |r.calls| ==>
              && "sortOrder" in r.calls[k] && r.calls[k]["sortOrder"] == JStr("Ascend")
              && "limit" in r.calls[k] && r.calls[k]["limit"] == JStr("10")
  {
    var r := FetchPaginatedData(CatalogParams, DefaultLimit, DefaultRetries, base, script);
    CatalogCalls(r);
    r
  }

  /** Every request of a run chained from the first catalog request asks for `sortOrder=Ascend` and `limit=10`. */
  lemma CatalogCalls(r: Pages)
    requires 1 <= |r.calls| <= |r.pages| + 1
    requires CursorsChained(FirstCall(CatalogParams, DefaultLimit), r)
    ensures r.calls[0] == CatalogCall
    ensures forall k :: 0 <= k < |r.calls| ==>
              && "sortOrder" in r.calls[k] && r.calls[k]["sortOrder"] == JStr("Ascend")
              && "limit" in r.calls[k] && r.calls[k]["limit"] == JStr("10")
  {
    var first := FirstCall(CatalogParams, DefaultLimit);
    CatalogFirstCall();
    ParamKept(first, "sortOrder", r);
    ParamKept(first, "limit", r);
  }

  /**
   One record of the comprehension: `str(asset["id"])` when `"id" in asset`,
   nothing when not. A record that is not a dict, string or list makes `in`
   raise `TypeError`, and so does `asset["id"]` on a string or list that
   contains `"id"`.
   */
  function RecordId(asset: Json): (r: Py<Option<string>>)
    ensures asset.JObj? ==>
              r == if HasKey(asset.members, "id") then Ok(Some(Str(Lookup(asset.members, "id").value))) else Ok(None)
    ensures r.Raised? <==> !asset.JObj? && In("id", asset) != Ok(false)
    ensures !asset.JObj? && In("id", asset) == Ok(false) ==> r == Ok(None)
    ensures r.Raised? ==> r.exc == TypeError
  {
    match In("id", asset)
    case Raised(e) => Raised(e)
    case Ok(has) =>
      if !has then Ok(None)
      else
        match Subscript(asset, "id")
        case Raised(e) => Raised(e)
        case Ok(id) => Ok(Some(Str(id)))
  }

  /**
   One step of a comprehension: a record whose step raised ends it with that
   exception; otherwise its id, if any, goes in front of what the rest gives.
   */
  function PrependRecord(step: Py<Option<string>>, rest: Py<seq<string>>): (r: Py<seq<string>>)
  {
    match step
    case Raised(e) => Raised(e)
    case Ok(id) =>
      match rest
      case Raised(e) => Raised(e)
      case Ok(ids) => Ok((if id.Some? then [id.value] else []) + ids)
  }

  /**
   A list comprehension over `assets` whose step for one record is `keep`: the
   records are read in order, `Ok(None)` skips one, `Ok(Some(s))` keeps `s`,
   and the first `Raised` ends the comprehension with that exception.
   */
  function Comprehension(keep: Json -> Py<Option<string>>, assets: seq<Json>): (r: Py<seq<string>>)
    ensures r.Ok? ==> |r.value| <= |assets|
    decreases |assets|
  {
    if assets == [] then Ok([]) else PrependRecord(keep(assets[0]), Comprehension(keep, assets[1..]))
  }

  /** Two comprehension results in a row: the first error wins, otherwise the lists are joined. */
  function Then(first: Py<seq<string>>, second: Py<seq<string>>): Py<seq<string>>
  {
    match first
    case Raised(e) => Raised(e)
    case Ok(xs) =>
      match second
      case Raised(e) => Raised(e)
      case Ok(ys) => Ok(xs + ys)
  }

  lemma PrependRecordThen(step: Py<Option<string>>, rest: Py<seq<string>>, more: Py<seq<string>>)
    ensures Then(PrependRecord(step, rest), more) == PrependRecord(step, Then(rest, more))
  {
    if step.Ok? && rest.Ok? && more.Ok? {
      var head: seq<string> := if step.value.Some? then [step.value.value] else [];
      assert (head + rest.value) + more.value == head + (rest.value + more.value);
    }
  }

  /** A comprehension raises exactly when the step raises on one of the records. */
  lemma {:induction false} ComprehensionRaise(keep: Json -> Py<Option<string>>, assets: seq<Json>)
    ensures Comprehension(keep, assets).Raised? <==> exists i :: 0 <= i < |assets| && keep(assets[i]).Raised?
  {
    if assets != [] {
      ComprehensionRaise(keep, assets[1..]);
      if keep(assets[0]).Raised? {
        assert keep(assets[0]).Raised?;
      } else if Comprehension(keep, assets[1..]).Raised? {
        var i :| 0 <= i < |assets[1..]| && keep(assets[1..][i]).Raised?;
        assert keep(assets[i + 1]).Raised?;
      } else {
        forall i | 0 <= i < |assets|
          ensures keep(assets[i]).Ok?
        {
          if i > 0 {
            assert assets[i] == assets[1..][i - 1];
          }
        }
      }
    }
  }

  /** When every exception the step raises is `e`, so is every exception the comprehension raises. */
  lemma {:induction false} ComprehensionError(keep: Json -> Py<Option<string>>, assets: seq<Json>, e: Exc)
    requires forall x :: keep(x).Raised? ==> keep(x).exc == e
    ensures Comprehension(keep, assets).Raised? ==> Comprehension(keep, assets).exc == e
    decreases |assets|
  {
    if assets != [] {
      ComprehensionError(keep, assets[1..], e);
    }
  }

  /** The comprehension over two lists in a row is that of each, joined; the first error wins. */
  lemma {:induction false} ComprehensionAppend(keep: Json -> Py<Option<string>>, a: seq<Json>, b: seq<Json>)
    ensures Comprehension(keep, a + b) == Then(Comprehension(keep, a), Comprehension(keep, b))
    decreases |a|
  {
    if a == [] {
      assert a + b == b;
      if Comprehension(keep, b).Ok? {
        assert [] + Comprehension(keep, b).value == Comprehension(keep, b).value;
      }
    } else {
      assert (a + b)[0] == a[0] && (a + b)[1..] == a[1..] + b;
      ComprehensionAppend(keep, a[1..], b);
      PrependRecordThen(keep(a[0]), Comprehension(keep, a[1..]), Comprehension(keep, b));
    }
  }

  /**
   `[str(asset["id"]) for asset in all_assets if "id" in asset]`: the comprehension
   whose step is `RecordId`, so the only exception it lets out is `TypeError`.
   */
  function ClothingIds(assets: seq<Json>): (r: Py<seq<string>>)
    ensures r.Ok? ==> |r.value| <= |assets|
    ensures r.Raised? ==> r.exc == TypeError
  {
    ComprehensionError(RecordId, assets, TypeError);
    Comprehension(RecordId, assets)
  }

  /** The comprehension raises exactly when one of the records does. */
  lemma ClothingIdsRaise(assets: seq<Json>)
    ensures ClothingIds(assets).Raised? <==> exists i :: 0 <= i < |assets| && RecordId(assets[i]).Raised?
  {
    ComprehensionRaise(RecordId, assets);
  }

  /** The dicts among `assets` that have an `"id"`, in order. */
  function DictsWithId(assets: seq<Json>): (d: seq<Json>)
    ensures forall j :: 0 <= j < |d| ==> d[j].JObj? && HasKey(d[j].members, "id")
  {
    if assets == [] then []
    else (if assets[0].JObj? && HasKey(assets[0].members, "id") then [assets[0]] else []) + DictsWithId(assets[1..])
  }

  /** `str(d["id"])` for each of `dicts`. */
  function IdStrings(dicts: seq<Json>): seq<string>
    requires forall j :: 0 <= j < |dicts| ==> dicts[j].JObj? && HasKey(dicts[j].members, "id")
  {
    seq(|dicts|, j requires 0 <= j < |dicts| => Str(Lookup(dicts[j].members, "id").value))
  }

  /**
   On a list of dicts nothing raises, records without `"id"` are skipped, and
   the ids of the others come out in their original order.
   */
  lemma {:induction false} ClothingIdsOfDicts(assets: seq<Json>)
    requires forall i :: 0 <= i < |assets| ==> assets[i].JObj?
    ensures ClothingIds(assets) == Ok(IdStrings(DictsWithId(assets)))
  {
    if assets == [] {
      assert IdStrings(DictsWithId(assets)) == [];
    } else {
      ClothingIdsOfDicts(assets[1..]);
      var rest := DictsWithId(assets[1..]);
      if HasKey(assets[0].members, "id") {
        var id := Str(Lookup(assets[0].members, "id").value);
        assert RecordId(assets[0]) == Ok(Some(id));
        assert ClothingIds(assets) == Ok([id] + IdStrings(rest));
        assert DictsWithId(assets) == [assets[0]] + rest;
        IdStringsCons(assets[0], rest);
        assert IdStrings(DictsWithId(assets)) == [id] + IdStrings(rest);
      } else {
        assert RecordId(assets[0]) == Ok(None);
        assert [] + IdStrings(rest) == IdStrings(rest);
        assert DictsWithId(assets) == rest;
      }
    }
  }

  /** `str` of the id of a dict in front of others comes first. */
  lemma IdStringsCons(d: Json, rest: seq<Json>)
    requires d.JObj? && HasKey(d.members, "id")
    requires forall j :: 0 <= j < |rest| ==> rest[j].JObj? && HasKey(rest[j].members, "id")
    ensures IdStrings([d] + rest) == [Str(Lookup(d.members, "id").value)] + IdStrings(rest)
  {
  }

  /** The ids of two lists read one after the other are the ids of each, joined; the first error wins. */
  lemma ClothingIdsAppend(a: seq<Json>, b: seq<Json>)
    ensures ClothingIds(a).Raised? ==> ClothingIds(a + b) == ClothingIds(a)
    ensures ClothingIds(a).Ok? && ClothingIds(b).Raised? ==> ClothingIds(a + b) == ClothingIds(b)
    ensures ClothingIds(a).Ok? && ClothingIds(b).Ok? ==> ClothingIds(a + b) == Ok(ClothingIds(a).value + ClothingIds(b).value)
  {
    ComprehensionAppend(RecordId, a, b);
  }

  /**
   `fetch_all_clothing_ids(group_id)`: `None` when the catalog comes back
   empty, otherwise the ids of its records; exceptions escape.
   */
  function FetchAllClothingIds(base: nat, script: seq<Outcome>): (r: Py<Option<seq<string>>>)
    ensures r == Ok(None) <==> CatalogRun(base, script).result == Ok([])
    ensures r.Ok? && r.value.Some? ==>
              && CatalogRun(base, script).result.Ok?
              && ClothingIds(CatalogRun(base, script).result.value) == Ok(r.value.value)
              && |r.value.value| <= |CatalogRun(base, script).result.value|
    ensures CatalogRun(base, script).result.Ok? && CatalogRun(base, script).result.value != []
            && ClothingIds(CatalogRun(base, script).result.value).Ok? ==>
              r == Ok(Some(ClothingIds(CatalogRun(base, script).result.value).value))
    ensures r.Raised? <==>
              || CatalogRun(base, script).result.Raised?
              || ClothingIds(CatalogRun(base, script).result.value).Raised?
    ensures r.Raised? ==> r.exc == TypeError
  {
    var run := CatalogRun(base, script);
    match run.result
    case Raised(e) => Raised(e)
    case Ok(all) =>
      if all == [] then Ok(None)
      else
        match ClothingIds(all)
        case Raised(e) => Raised(e)
        case Ok(ids) => Ok(Some(ids))
  }

  /** A non-empty catalog of dicts none of which has an `"id"` gives `[]`, not `None`. */
  lemma NoIdsGiveEmptyList(base: nat, script: seq<Outcome>)
    ensures var run := CatalogRun(base, script);
            && run.result.Ok? && run.result.value != []
            && (forall i :: 0 <= i < |run.result.value| ==>
                  run.result.value[i].JObj? && !HasKey(run.result.value[i].members, "id"))
            ==> FetchAllClothingIds(base, script) == Ok(Some([]))
  {
    var run := CatalogRun(base, script);
    if run.result.Ok? && forall i :: 0 <= i < |run.result.value| ==> run.result.value[i].JObj? {
      ClothingIdsOfDicts(run.result.value);
      if forall i :: 0 <= i < |run.result.value| ==> !HasKey(run.result.value[i].members, "id") {
        NoIdNotKept(run.result.value);
      }
    }
  }

  /**
   A catalog whose records are all dicts never raises: a non-empty one gives
   the ids of the records that have an `"id"`, in catalog order.
   */
  lemma CatalogOfDicts(base: nat, script: seq<Outcome>)
    ensures var run := CatalogRun(base, script);
            && run.result.Ok? && run.result.value != []
            && (forall i :: 0 <= i < |run.result.value| ==> run.result.value[i].JObj?)
            ==> FetchAllClothingIds(base, script) == Ok(Some(IdStrings(DictsWithId(run.result.value))))
  {
    var run := CatalogRun(base, script);
    if run.result.Ok? && forall i :: 0 <= i < |run.result.value| ==> run.result.value[i].JObj? {
      ClothingIdsOfDicts(run.result.value);
    }
  }

  /** A dict without `"id"` never makes it into `DictsWithId`. */
  lemma {:induction false} NoIdNotKept(assets: seq<Json>)
    requires forall i :: 0 <= i < |assets| ==> !(assets[i].JObj? && HasKey(assets[i].members, "id"))
    ensures DictsWithId(assets) == []
  {
    if assets != [] {
      NoIdNotKept(assets[1..]);
    }
  }
}

=== FILE: optional.dfy ===
/** Python's `Optional[T]`: either `None` or a value. */
module Optional {

  datatype Option<+T> = None | Some(value: T) {

    /** The value, or `default` when there is none (Python's `x if x is not None else default`). */
    function GetOr(default: T): T {
      match this
      case Some(v) => v
      case None => default
    }
  }
}

=== FILE: pagination_examples.dfy ===
/**
 `fetch_paginated_data` has no guard against a server that keeps sending the
 same `nextPageCursor`: it asks again with the same cursor for as long as
 pages keep coming, and only the end of the responses stops it.
 */
module PaginationLoops {
  import opened Optional
  import opened PyJson
  import opened ApiHandler
  import opened Paginator
  import opened Pagination

  /** A 200 answer with a JSON Content-Type whose body decodes to `page`. */
  function Ok200(page: Json): Outcome {
    Answered(Response(200, Some("application/json"), "", Some(page)))
  }

  /** `n` answers, each a 200 with the same decoded `page`. */
  function SamePage(page: Json, n: nat): (script: seq<Outcome>)
    ensures |script| == n
    ensures forall i :: 0 <= i < n ==> script[i] == Ok200(page)
  {
    seq(n, i => Ok200(page))
  }

  /** A page with iterable `"data"` and a truthy cursor, served `n` times. */
  ghost predicate ServedEveryTime(page: Json, n: nat, r: Pages) {
    && |r.pages| == n
    && |r.calls| == n + 1
    && r.result.Ok?
    && forall k :: 0 <= k < n ==> r.pages[k] == page
  }

  /** `fetch_json` returns the page of the first answer, and nothing once the answers have run out. */
  lemma SamePageFetched(retries: int, base: nat, page: Json, n: nat)
    requires 0 < retries
    requires page.JObj? && Truthy(page)
    ensures n == 0 ==> JsonFetcher(retries, base)(SamePage(page, n)).result.None?
    ensures n > 0 ==> JsonFetcher(retries, base)(SamePage(page, n)) == Run(Some(page), 1, [])
  {
    var script := SamePage(page, n);
    GetSpec(script, retries, base);
    if n > 0 {
      FirstAnswerFetched(retries, base, page, script);
    }
  }

  /** `fetch_json` returns the page of a first attempt answered 200, after that one request. */
  lemma FirstAnswerFetched(retries: int, base: nat, page: Json, script: seq<Outcome>)
    requires 0 < retries
    requires page.JObj? && Truthy(page)
    requires script != [] && Succeeded(script[0]) && script[0].response.json == Some(page)
    ensures JsonFetcher(retries, base)(script) == Run(Some(page), 1, [])
  {
    GetSpec(script, retries, base);
    assert Succeeded(At(script, 0));
  }

  /** A `fetch_json` that returns `page` for each answer of `SamePage` and nothing once they have run out. */
  ghost predicate ServesPage(fetch: Fetcher, page: Json) {
    && fetch(SamePage(page, 0)).result.None?
    && forall n: nat :: n > 0 ==> fetch(SamePage(page, n)) == Run(Some(page), 1, [])
  }

  /** While the script lasts, each answer is taken as a new page, whatever its cursor. */
  lemma {:induction false} SamePageEveryRound(fetch: Fetcher, page: Json, call: Params, acc: seq<Json>, n: nat)
    requires ConsumesScript(fetch) && ServesPage(fetch, page)
    requires IsPage(page) && Truthy(NextCursor(page))
    ensures ServedEveryTime(page, n, PaginateLoop(fetch, call, acc, SamePage(page, n)))
    decreases n
  {
    var script := SamePage(page, n);
    var r := PaginateLoop(fetch, call, acc, script);
    var fetched := fetch(script);
    if n == 0 {
      assert r.pages == [] && |r.calls| == 1 && r.result.Ok?;
    } else {
      assert fetched == Run(Some(page), 1, []);
      var step := Classify(fetched.result);
      assert step.NextPage? && step.page == page;
      assert script[1..] == SamePage(page, n - 1);
      var nextCall := call["cursor" := step.cursor];
      SamePageEveryRound(fetch, page, nextCall, acc + step.items, n - 1);
      var more := PaginateLoop(fetch, nextCall, acc + step.items, script[1..]);
      assert r.pages == [page] + more.pages && r.calls == [call] + more.calls && r.result == more.result;
      ServedStep(page, n, call, r, more);
    }
  }

  lemma ServedStep(page: Json, n: nat, call: Params, r: Pages, more: Pages)
    requires 0 < n && ServedEveryTime(page, n - 1, more)
    requires r.pages == [page] + more.pages && r.calls == [call] + more.calls && r.result == more.result
    ensures ServedEveryTime(page, n, r)
  {
    forall k | 0 <= k < n
      ensures r.pages[k] == page
    {
      if k > 0 {
        assert r.pages[k] == more.pages[k - 1];
      }
    }
  }

  /**
   A run that sent the cursor of `page` in each of its `n` requests after the
   first, got `page` back each time, and returned normally.
   */
  ghost predicate RepeatedCursor(page: Json, n: nat, r: Pages) {
    && ServedEveryTime(page, n, r)
    && forall k :: 1 <= k <= n ==> "cursor" in r.calls[k] && r.calls[k]["cursor"] == NextCursor(page)
  }

  /**
   `n` answers carrying the same page make `fetch_paginated_data` send the same
   cursor `n` times over and return that page's items `n` times, followed by
   one more request round that finds no answer.
   */
  lemma RepeatedCursorNotDetected(params: Params, limit: int, retries: int, base: nat, page: Json, n: nat)
    requires 0 < retries
    requires IsPage(page) && Truthy(NextCursor(page))
    ensures RepeatedCursor(page, n, FetchPaginatedData(params, limit, retries, base, SamePage(page, n)))
  {
    var r := FetchPaginatedData(params, limit, retries, base, SamePage(page, n));
    assert r == PaginateLoop(JsonFetcher(retries, base), FirstCall(params, limit), [], SamePage(page, n));
    forall m: nat
      ensures m == 0 ==> JsonFetcher(retries, base)(SamePage(page, m)).result.None?
      ensures m > 0 ==> JsonFetcher(retries, base)(SamePage(page, m)) == Run(Some(page), 1, [])
    {
      SamePageFetched(retries, base, page, m);
    }
    SamePageEveryRound(JsonFetcher(retries, base), page, FirstCall(params, limit), [], n);
    forall k | 1 <= k <= n
      ensures "cursor" in r.calls[k] && r.calls[k]["cursor"] == NextCursor(page)
    {
      assert r.calls[(k - 1) + 1] == FirstCall(params, limit)["cursor" := NextCursor(r.pages[k - 1])];
    }
  }
}

=== FILE: paginator.dfy ===
/**
 The cursor loop of `APIHandler.fetch_paginated_data`: it calls `fetch_json`
 with a `limit` and, from the second page on, the previous page's
 `nextPageCursor`, and concatenates the pages' `data` arrays.
 */
module Paginator {
  import opened Optional
  import opened PyJson
  import opened ApiHandler
  import Strings

  /** The query parameters of one request. */
  type Params = map<string, Json>

  /**
   A finished `fetch_paginated_data`: the accumulated items (or the exception
   that escaped), the parameters of each `fetch_json` call, the pages those
   calls returned, and the requests and sleeps of all of them together.
   */
  datatype Pages = Pages(result: Py<seq<Json>>, calls: seq<Params>, pages: seq<Json>, requests: nat, sleeps: seq<nat>)

  /** `response.get("nextPageCursor")`. */
  function NextCursor(page: Json): Json {
    GetOr(page, "nextPageCursor", JNull)
  }

  /** The cursor is the value bound to `"nextPageCursor"` in a dict that has that key, and `None` otherwise. */
  lemma NextCursorSpec(page: Json)
    ensures page.JObj? && HasKey(page.members, "nextPageCursor") ==>
              exists i :: 0 <= i < |page.members| && page.members[i] == ("nextPageCursor", NextCursor(page))
    ensures !(page.JObj? && HasKey(page.members, "nextPageCursor")) ==> NextCursor(page) == JNull
  {
  }

  /** A response the loop extends its result with: a dict whose `"data"` can be iterated. */
  predicate IsPage(page: Json) {
    page.JObj? && HasKey(page.members, "data") && Iterate(Lookup(page.members, "data").value).Some?
  }

  /** The items `all_data.extend(response["data"])` appends for a page. */
  function PageItems(page: Json): seq<Json> {
    if IsPage(page) then Iterate(Lookup(page.members, "data").value).value else []
  }

  /** The items of all pages, page after page. */
  function Flatten(pages: seq<Json>): seq<Json> {
    if pages == [] then [] else PageItems(pages[0]) + Flatten(pages[1..])
  }

  /** What one `fetch_json` result means to the loop. */
  datatype PageStep =
    | NoPage                                                  // `not response or "data" not in response`: stop
    | NotIterable(page: Json)                                 // `extend` raises `TypeError`
    | LastPage(page: Json, items: seq<Json>)                  // falsy `nextPageCursor`: stop after this page
    | NextPage(page: Json, items: seq<Json>, cursor: Json)    // keep going with this cursor

  function Classify(fetched: Option<Json>): (s: PageStep)
    ensures s.NoPage? <==> fetched.None? || !fetched.value.JObj? || !HasKey(fetched.value.members, "data")
    ensures !s.NoPage? ==> s.page == fetched.value && s.page.JObj? && HasKey(s.page.members, "data")
    ensures s.NotIterable? <==> !s.NoPage? && !IsPage(s.page)
    ensures s.LastPage? || s.NextPage? ==> IsPage(s.page) && s.items == PageItems(s.page)
    ensures s.LastPage? ==> !Truthy(NextCursor(s.page))
    ensures s.NextPage? ==> s.cursor == NextCursor(s.page) && Truthy(s.cursor)
  {
    if fetched.None? || !fetched.value.JObj? || !HasKey(fetched.value.members, "data") then NoPage
    else
      var page := fetched.value;
      match Iterate(Lookup(page.members, "data").value)
      case None => NotIterable(page)
      case Some(items) =>
        if Truthy(NextCursor(page)) then NextPage(page, items, NextCursor(page)) else LastPage(page, items)
  }

  /** The `fetch_json` a loop calls; it answers with a payload only after a request that the script answered. */
  type Fetcher = seq<Outcome> -> Run<Option<Json>>

  ghost predicate ConsumesScript(fetch: Fetcher) {
    forall script :: fetch(script).result.Some? ==> 0 < fetch(script).requests <= |script|
  }

  /**
   The `while True` loop of `fetch_paginated_data` from a round that sends
   `call`; `fetch` is the `fetch_json` call with its retry budget and `acc` the
   items so far. The `if page_cursor:` at the head of the loop leaves the
   parameters alone in the first round, which has no cursor yet, and sets
   `cursor` in every later round, since the loop only goes round again after
   a truthy cursor. Each page costs at least one entry of the script, so the
   loop ends.
   */
  function PaginateLoop(fetch: Fetcher, call: Params, acc: seq<Json>, script: seq<Outcome>): (r: Pages)
    requires ConsumesScript(fetch)
    ensures 1 <= |r.calls| && |r.pages| <= |r.calls| <= |r.pages| + 1
    ensures |r.pages| <= |script|
    ensures r.calls[0] == call
    decreases |script|
  {
    var fetched := fetch(script);
    match Classify(fetched.result)
    case NoPage =>
      Pages(Ok(acc), [call], [], fetched.requests, fetched.sleeps)
    case NotIterable(page) =>
      Pages(Raised(TypeError), [call], [page], fetched.requests, fetched.sleeps)
    case LastPage(page, items) =>
      Pages(Ok(acc + items), [call], [page], fetched.requests, fetched.sleeps)
    case NextPage(page, items, next) =>
      var more := PaginateLoop(fetch, call["cursor" := next], acc + items, script[fetched.requests..]);
      Pages(more.result, [call] + more.calls, [page] + more.pages,
            fetched.requests + more.requests, fetched.sleeps + more.sleeps)
  }
}

/**
 What `fetch_paginated_data` promises: how its requests are formed, what it
 returns, how many requests it issues. The entry point lives here, next to the
 proofs it relies on.
 */
module Pagination {
  import opened Optional
  import opened PyJson
  import opened ApiHandler
  import opened Paginator
  import Strings

  /**
   The first request of a run sends `params`, and each later request sends
   `params` with `cursor` set to the truthy `nextPageCursor` of the page
   before it.
   */
  ghost predicate CursorsChained(params: Params, r: Pages)
    requires |r.pages| + 1 >= |r.calls|
  {
    && 1 <= |r.calls| && r.calls[0] == params
    && (forall k :: 0 <= k < |r.calls| - 1 ==>
          Truthy(NextCursor(r.pages[k])) && r.calls[k + 1] == params["cursor" := NextCursor(r.pages[k])])
  }

  /** One round in front of a chained run keeps the chain. */
  lemma CursorsChainedStep(call: Params, page: Json, r: Pages, more: Pages)
    requires |more.pages| + 1 >= |more.calls|
    requires Truthy(NextCursor(page))
    requires r.calls == [call] + more.calls && r.pages == [page] + more.pages
    requires CursorsChained(call["cursor" := NextCursor(page)], more)
    ensures CursorsChained(call, r)
  {
    var next := call["cursor" := NextCursor(page)];
    forall k | 0 <= k < |r.calls| - 1
      ensures Truthy(NextCursor(r.pages[k])) && r.calls[k + 1] == call["cursor" := NextCursor(r.pages[k])]
    {
      assert r.calls[k + 1] == more.calls[k];
      if k > 0 {
        assert r.pages[k] == more.pages[k - 1];
        assert more.calls[(k - 1) + 1] == next["cursor" := NextCursor(more.pages[k - 1])];
        assert next["cursor" := NextCursor(r.pages[k])] == call["cursor" := NextCursor(r.pages[k])];
      }
    }
  }

  lemma {:induction false} PaginateCursors(fetch: Fetcher, call: Params, acc: seq<Json>, script: seq<Outcome>)
    requires ConsumesScript(fetch)
    ensures CursorsChained(call, PaginateLoop(fetch, call, acc, script))
    decreases |script|
  {
    var r := PaginateLoop(fetch, call, acc, script);
    var fetched := fetch(script);
    var step := Classify(fetched.result);
    if step.NextPage? {
      var rest := script[fetched.requests..];
      var nextCall := call["cursor" := step.cursor];
      PaginateCursors(fetch, nextCall, acc + step.items, rest);
      var more := PaginateLoop(fetch, nextCall, acc + step.items, rest);
      assert r.calls == [call] + more.calls && r.pages == [step.page] + more.pages;
      CursorsChainedStep(call, step.page, r, more);
    } else {
      assert |r.calls| == 1;
    }
  }

  /**
   Every page of a run is a dict with `"data"`; the result is `acc` followed
   by the items of all pages in order, unless the last page's `"data"` cannot
   be iterated, in which case `TypeError` escapes and no round follows; a run
   that returns normally after its last page stopped because that page had no
   truthy cursor.
   */
  ghost predicate ItemsCollected(acc: seq<Json>, r: Pages)
    requires 1 <= |r.calls| && |r.pages| <= |r.calls|
  {
    && (forall k :: 0 <= k < |r.pages| ==> r.pages[k].JObj? && HasKey(r.pages[k].members, "data"))
    && (forall k :: 0 <= k < |r.pages| - 1 ==> IsPage(r.pages[k]))
    && (r.result.Ok? ==> r.result.value == acc + Flatten(r.pages))
    && (r.result.Ok? && |r.pages| == |r.calls| ==> !Truthy(NextCursor(r.pages[|r.pages| - 1])))
    && (r.result.Raised? ==>
          r.result.exc == TypeError && |r.pages| == |r.calls| && !IsPage(r.pages[|r.pages| - 1]))
    && (r.pages != [] && !IsPage(r.pages[|r.pages| - 1]) ==> r.result == Raised(TypeError) && |r.pages| == |r.calls|)
  }

  /** A page with iterable `"data"` and a truthy cursor in front of a run keeps what the run collects. */
  lemma ItemsCollectedStep(acc: seq<Json>, call: Params, page: Json, r: Pages, more: Pages)
    requires 1 <= |more.calls| && |more.pages| <= |more.calls|
    requires IsPage(page)
    requires r.result == more.result && r.calls == [call] + more.calls && r.pages == [page] + more.pages
    requires ItemsCollected(acc + PageItems(page), more)
    ensures ItemsCollected(acc, r)
  {
    assert r.pages[1..] == more.pages;
    assert r.pages[|r.pages| - 1] == if more.pages == [] then page else more.pages[|more.pages| - 1];
    assert Flatten(r.pages) == PageItems(page) + Flatten(more.pages);
    forall k | 0 <= k < |r.pages|
      ensures r.pages[k].JObj? && HasKey(r.pages[k].members, "data")
      ensures k < |r.pages| - 1 ==> IsPage(r.pages[k])
    {
      if k > 0 {
        assert r.pages[k] == more.pages[k - 1];
      }
    }
  }

  lemma {:induction false} PaginateItems(fetch: Fetcher, call: Params, acc: seq<Json>, script: seq<Outcome>)
    requires ConsumesScript(fetch)
    ensures ItemsCollected(acc, PaginateLoop(fetch, call, acc, script))
    decreases |script|
  {
    var r := PaginateLoop(fetch, call, acc, script);
    var fetched := fetch(script);
    var step := Classify(fetched.result);
    if step.NextPage? {
      var rest := script[fetched.requests..];
      var nextCall := call["cursor" := step.cursor];
      PaginateItems(fetch, nextCall, acc + step.items, rest);
      var more := PaginateLoop(fetch, nextCall, acc + step.items, rest);
      assert r.result == more.result && r.calls == [call] + more.calls && r.pages == [step.page] + more.pages;
      ItemsCollectedStep(acc, call, step.page, r, more);
    } else if step.NoPage? {
      assert r.result == Ok(acc) && r.pages == [];
    } else if step.NotIterable? {
      assert r.result == Raised(TypeError) && r.pages == [step.page] && |r.calls| == 1;
    } else {
      assert r.result == Ok(acc + step.items) && r.pages == [step.page] && |r.calls| == 1;
      assert Flatten([step.page]) == step.items + Flatten([]);
    }
  }

  /**
   The run is what `fetch` answered, round after round: each round reads the
   script where the round before stopped, its page is that round's payload, and
   the requests and sleeps of the run are those of its rounds, in order. A
   round is followed by another exactly when its page has iterable `"data"` and
   a truthy cursor; a run without a final page ended on an answer that was no
   dict with `"data"`.
   */
  ghost predicate RoundsServed(fetch: Fetcher, script: seq<Outcome>, r: Pages)
    decreases |r.calls|
  {
    var fetched := fetch(script);
    && 1 <= |r.calls| && |r.pages| <= |r.calls|
    && fetched.requests <= r.requests
    && |fetched.sleeps| <= |r.sleeps| && r.sleeps[..|fetched.sleeps|] == fetched.sleeps
    && if |r.calls| == 1 then
         && r.requests == fetched.requests && r.sleeps == fetched.sleeps
         && (r.pages == [] <==> Classify(fetched.result).NoPage?)
         && (r.pages != [] ==> fetched.result == Some(r.pages[0]) && !Classify(fetched.result).NextPage?)
       else
         && r.pages != [] && fetched.result == Some(r.pages[0]) && fetched.requests <= |script|
         && Classify(fetched.result).NextPage?
         && RoundsServed(fetch, script[fetched.requests..],
              Pages(r.result, r.calls[1..], r.pages[1..], r.requests - fetched.requests, r.sleeps[|fetched.sleeps|..]))
  }

  /** A round served from the head of the script in front of a run served from the rest keeps the run served. */
  lemma RoundsServedStep(fetch: Fetcher, script: seq<Outcome>, call: Params, page: Json, r: Pages, more: Pages)
    requires fetch(script).result == Some(page) && fetch(script).requests <= |script|
    requires Classify(fetch(script).result).NextPage?
    requires r.result == more.result && r.calls == [call] + more.calls && r.pages == [page] + more.pages
    requires r.requests == fetch(script).requests + more.requests && r.sleeps == fetch(script).sleeps + more.sleeps
    requires RoundsServed(fetch, script[fetch(script).requests..], more)
    ensures RoundsServed(fetch, script, r)
  {
    var fetched := fetch(script);
    assert r.calls[1..] == more.calls && r.pages[1..] == more.pages;
    assert r.sleeps[..|fetched.sleeps|] == fetched.sleeps && r.sleeps[|fetched.sleeps|..] == more.sleeps;
    assert Pages(r.result, r.calls[1..], r.pages[1..], r.requests - fetched.requests, r.sleeps[|fetched.sleeps|..]) == more;
  }

  lemma {:induction false} PaginateServed(fetch: Fetcher, call: Params, acc: seq<Json>, script: seq<Outcome>)
    requires ConsumesScript(fetch)
    ensures RoundsServed(fetch, script, PaginateLoop(fetch, call, acc, script))
    decreases |script|
  {
    var r := PaginateLoop(fetch, call, acc, script);
    var fetched := fetch(script);
    var step := Classify(fetched.result);
    if step.NextPage? {
      var rest := script[fetched.requests..];
      var nextCall := call["cursor" := step.cursor];
      PaginateServed(fetch, nextCall, acc + step.items, rest);
      var more := PaginateLoop(fetch, nextCall, acc + step.items, rest);
      RoundsServedStep(fetch, script, call, step.page, r, more);
    } else {
      assert |r.calls| == 1 && r.requests == fetched.requests && r.sleeps == fetched.sleeps;
    }
  }

  /** `n * m`, spelled out as repeated addition. */
  function Times(n: nat, m: nat): nat {
    if n == 0 then 0 else m + Times(n - 1, m)
  }

  /** A round that costs at most `budget` in front of a run within budget keeps the run within budget. */
  lemma RequestsStep(budget: nat, requests: nat, r: Pages, more: Pages)
    requires requests <= budget && more.requests <= Times(|more.calls|, budget)
    requires r.requests == requests + more.requests && |r.calls| == 1 + |more.calls|
    ensures r.requests <= Times(|r.calls|, budget)
  {
  }

  /** A loop whose `fetch_json` issues at most `budget` requests issues at most `budget` per round. */
  lemma {:induction false} PaginateRequests(fetch: Fetcher, budget: nat, call: Params, acc: seq<Json>, script: seq<Outcome>)
    requires ConsumesScript(fetch)
    requires forall s :: fetch(s).requests <= budget
    ensures PaginateLoop(fetch, call, acc, script).requests
            <= Times(|PaginateLoop(fetch, call, acc, script).calls|, budget)
    decreases |script|
  {
    var r := PaginateLoop(fetch, call, acc, script);
    var fetched := fetch(script);
    assert fetched.requests <= budget;
    var step := Classify(fetched.result);
    if step.NextPage? {
      var rest := script[fetched.requests..];
      PaginateRequests(fetch, budget, call["cursor" := step.cursor], acc + step.items, rest);
      var more := PaginateLoop(fetch, call["cursor" := step.cursor], acc + step.items, rest);
      assert r.requests == fetched.requests + more.requests && |r.calls| == 1 + |more.calls|;
      RequestsStep(budget, fetched.requests, r, more);
    } else {
      assert r.requests == fetched.requests && |r.calls| == 1;
    }
  }

  /** Every request of a chained run carries each parameter of the first other than `cursor`, such as `limit`. */
  lemma ParamKept(first: Params, key: string, r: Pages)
    requires |r.pages| + 1 >= |r.calls| && key in first && key != "cursor"
    requires CursorsChained(first, r)
    ensures forall k :: 0 <= k < |r.calls| ==> key in r.calls[k] && r.calls[k][key] == first[key]
  {
    forall k | 0 <= k < |r.calls|
      ensures key in r.calls[k] && r.calls[k][key] == first[key]
    {
      if k > 0 {
        assert r.calls[(k - 1) + 1] == first["cursor" := NextCursor(r.pages[k - 1])];
      }
    }
  }

  /** The `fetch_json(url, params, retries)` call of the loop, with `RATE_LIMIT_SLEEP` as `base`. */
  function JsonFetcher(retries: int, base: nat): (fetch: Fetcher)
    ensures ConsumesScript(fetch)
  {
    s => FetchJson(s, retries, base)
  }

  /** The parameters of the first request: the caller's, with `limit` set to `str(limit)`. */
  function FirstCall(params: Params, limit: int): (call: Params)
    ensures "limit" in call && call["limit"] == JStr(Strings.IntToString(limit))
    ensures call.Keys == params.Keys + {"limit"}
  {
    params["limit" := JStr(Strings.IntToString(limit))]
  }

  /** Setting `limit` leaves every other parameter of the caller as it was. */
  lemma FirstCallKeeps(params: Params, limit: int, key: string)
    requires key in params && key != "limit"
    ensures key in FirstCall(params, limit) && FirstCall(params, limit)[key] == params[key]
  {
  }

  /**
   `fetch_paginated_data(url, params, limit, retries)`: sets `limit` to
   `str(limit)` once, starts without a cursor and collects every page's `data`.
   */
  function FetchPaginatedData(params: Params, limit: int, retries: int, base: nat, script: seq<Outcome>): (r: Pages)
    ensures 1 <= |r.calls| && |r.pages| <= |r.calls| <= |r.pages| + 1
    ensures r.calls[0] == params["limit" := JStr(Strings.IntToString(limit))]
    ensures CursorsChained(params["limit" := JStr(Strings.IntToString(limit))], r)
    ensures forall k :: 0 <= k < |r.calls| ==> "limit" in r.calls[k] && r.calls[k]["limit"] == JStr(Strings.IntToString(limit))
    ensures ItemsCollected([], r)
    ensures r.requests <= Times(|r.calls|, Max(0, retries))
    ensures |r.pages| <= |script|
    ensures RoundsServed(JsonFetcher(retries, base), script, r)
  {
    var fetch := JsonFetcher(retries, base);
    var first := FirstCall(params, limit);
    var r := PaginateLoop(fetch, first, [], script);
    PaginateCursors(fetch, first, [], script);
    PaginateItems(fetch, first, [], script);
    PaginateRequests(fetch, Max(0, retries), first, [], script);
    PaginateServed(fetch, first, [], script);
    ParamKept(first, "limit", r);
    r
  }
}

=== FILE: pyjson.dfy ===
/**
 Decoded JSON values as Python sees them after `response.json()`, and the few
 pieces of Python semantics the scraper applies to them: truthiness, `key in v`,
 `v[key]`, `dict.get`, `list.extend(v)` and `str(v)`.

 A JSON object is its member list in insertion order. Like every Python dict,
 the objects this model is about have distinct keys; lookups read the first
 binding of a key.
 */
module PyJson {
  import opened Optional
  import opened Strings

  datatype Json =
    | JNull
    | JBool(b: bool)
    | JInt(i: int)
    | JStr(s: string)
    | JArr(items: seq<Json>)
    | JObj(members: seq<(string, Json)>)

  /** The Python exceptions the modelled code can raise. */
  datatype Exc = TypeError | KeyError | AttributeError

  /** A Python computation that either returns a value or raises. */
  datatype Py<+T> = Ok(value: T) | Raised(exc: Exc)

  /** Python's `bool(v)`: `None`, `False`, `0` and empty containers are falsy. */
  predicate Truthy(v: Json): (b: bool)
    ensures !b <==> v == JNull || v == JBool(false) || v == JInt(0) || v == JStr("") || v == JArr([]) || v == JObj([])
  {
    match v
    case JNull => false
    case JBool(b) => b
    case JInt(i) => i != 0
    case JStr(s) => s != []
    case JArr(items) => items != []
    case JObj(members) => members != []
  }

  /** `key in d` for a dict `d`. */
  predicate HasKey(members: seq<(string, Json)>, key: string) {
    exists i :: 0 <= i < |members| && members[i].0 == key
  }

  /** `d.get(key)`: the value bound to `key`, if any. */
  function Lookup(members: seq<(string, Json)>, key: string): (r: Option<Json>)
    ensures r.Some? <==> HasKey(members, key)
    ensures r.Some? ==> exists i :: 0 <= i < |members| && members[i] == (key, r.value)
  {
    if members == [] then None
    else if members[0].0 == key then Some(members[0].1)
    else
      var r := Lookup(members[1..], key);
      assert HasKey(members, key) ==> HasKey(members[1..], key) by {
        if HasKey(members, key) {
          var i :| 0 <= i < |members| && members[i].0 == key;
          assert members[1..][i - 1].0 == key;
        }
      }
      assert r.Some? ==> members[1..][Index(members[1..], key, r.value)] == (key, r.value);
      r
  }

  /** Some position of the binding `(key, value)` in `members`, when there is one. */
  ghost function Index(members: seq<(string, Json)>, key: string, value: Json): (i: int)
    ensures (exists j :: 0 <= j < |members| && members[j] == (key, value)) ==>
              0 <= i < |members| && members[i] == (key, value)
  {
    if exists j :: 0 <= j < |members| && members[j] == (key, value) then
      var j :| 0 <= j < |members| && members[j] == (key, value); j
    else 0
  }

  /** `d.get(key, default)` on a JSON object; any other value has no keys. */
  function GetOr(v: Json, key: string, default: Json): Json {
    if v.JObj? then Lookup(v.members, key).GetOr(default) else default
  }

  /**
   The elements `list.extend(v)` appends: a list's items, a string's characters,
   a dict's keys; `None` when `v` is not iterable and Python raises `TypeError`.
   */
  function Iterate(v: Json): (r: Option<seq<Json>>)
    ensures r.Some? <==> v.JArr? || v.JStr? || v.JObj?
    ensures v.JArr? ==> r == Some(v.items)
  {
    match v
    case JArr(items) => Some(items)
    case JStr(s) => Some(seq(|s|, i requires 0 <= i < |s| => JStr([s[i]])))
    case JObj(members) => Some(seq(|members|, i requires 0 <= i < |members| => JStr(members[i].0)))
    case _ => None
  }

  /** Iterating a string yields its one-character strings; iterating a dict yields its keys, in order. */
  lemma IterateSpec(v: Json)
    ensures v.JStr? ==> |Iterate(v).value| == |v.s| && forall i :: 0 <= i < |v.s| ==> Iterate(v).value[i] == JStr([v.s[i]])
    ensures v.JObj? ==> |Iterate(v).value| == |v.members| && forall i :: 0 <= i < |v.members| ==> Iterate(v).value[i] == JStr(v.members[i].0)
  {
  }

  /** Python's `key in v` for a string `key`: dict key, substring, or list element test. */
  function In(key: string, v: Json): (r: Py<bool>)
    ensures v.JObj? ==> r == Ok(HasKey(v.members, key))
    ensures v.JStr? ==> (r == Ok(true) <==> exists i :: OccursAt(key, v.s, i))
    ensures v.JArr? ==> (r == Ok(true) <==> JStr(key) in v.items)
    ensures r.Raised? <==> !(v.JObj? || v.JStr? || v.JArr?)
  {
    match v
    case JObj(members) => Ok(HasKey(members, key))
    case JStr(s) => Ok(Contains(key, s))
    case JArr(items) => Ok(JStr(key) in items)
    case _ => Raised(TypeError)
  }

  /** Python's `v[key]` for a string `key`. */
  function Subscript(v: Json, key: string): (r: Py<Json>)
    ensures r.Ok? <==> v.JObj? && HasKey(v.members, key)
    ensures r.Ok? ==> r.value == Lookup(v.members, key).value
    ensures r.Raised? ==> (r.exc == KeyError <==> v.JObj?) && (r.exc == TypeError <==> !v.JObj?)
  {
    match v
    case JObj(members) =>
      (match Lookup(members, key)
       case Some(x) => Ok(x)
       case None => Raised(KeyError))
    case _ => Raised(TypeError)
  }

  function Join(parts: seq<string>): string {
    if parts == [] then ""
    else if |parts| == 1 then parts[0]
    else parts[0] + ", " + Join(parts[1..])
  }

  /** Python's `str(v)`: a string is itself, everything else prints as its `repr`. */
  function Str(v: Json): (r: string)
    ensures v.JStr? ==> r == v.s
    ensures !v.JStr? ==> r == Repr(v)
  {
    match v
    case JStr(s) => s
    case _ => Repr(v)
  }

  /** A non-negative integer prints as decimal digits that read back as it; a negative one starts with `-`. */
  lemma StrOfInt(v: Json)
    requires v.JInt?
    ensures v.i >= 0 ==> (forall k :: 0 <= k < |Str(v)| ==> IsDigit(Str(v)[k])) && ParseDigits(Str(v)) == v.i
    ensures v.i < 0 ==> Str(v)[0] == '-'
  {
  }

  /** Python's `repr(v)`; strings inside are quoted with `'` and not escaped. */
  function Repr(v: Json): (r: string)
    ensures r != []
    ensures v.JNull? ==> r == "None"
    ensures v.JStr? ==> r[0] == '\'' && r[|r| - 1] == '\''
    ensures v.JArr? ==> r[0] == '[' && r[|r| - 1] == ']'
    ensures v.JObj? ==> r[0] == '{' && r[|r| - 1] == '}'
    decreases v
  {
    match v
    case JNull => "None"
    case JBool(b) => if b then "True" else "False"
    case JInt(i) => IntToString(i)
    case JStr(s) => "'" + s + "'"
    case JArr(items) =>
      "[" + Join(seq(|items|, i requires 0 <= i < |items| => Repr(items[i]))) + "]"
    case JObj(members) =>
      "{" + Join(seq(|members|, i requires 0 <= i < |members| =>
                   "'" + members[i].0 + "': " + Repr(members[i].1))) + "}"
  }
}

=== FILE: roblox_asset_downloader.dfy ===
/**
 `RobloxAssetDownloader`: pulling an asset id out of the asset-delivery page,
 following it to the image, optionally laying a clothing template over the
 image, and saving it; plus the input handling of the command-line `main`.

 `get_between` runs the regular expression `start(.*?)end` with delimiters that
 are plain text (no regular-expression metacharacters). Its match is the
 leftmost position where `start` occurs and is followed, on the same line, by
 `end`; the capture is the shortest such stretch.
 */
module Downloader {
  import opened Optional
  import opened Strings
  import opened ApiHandler
  import opened Collaborators

  /** No line break in `source[a..b]` (what `.` in a regular expression refuses to match). */
  ghost predicate OnOneLine(source: string, a: int, b: int) {
    forall i :: a <= i < b && 0 <= i < |source| ==> source[i] != '\n'
  }

  /** `end` occurs at `k`, and `source[from..k]` can be matched by `.*`. */
  ghost predicate EndsAt(source: string, from: int, end: string, k: int) {
    from <= k && OccursAt(end, source, k) && OnOneLine(source, from, k)
  }

  /** `start(.*)end` matches at `p` with the group ending at `k`. */
  ghost predicate Captures(source: string, start: string, end: string, p: int, k: int) {
    OccursAt(start, source, p) && EndsAt(source, p + |start|, end, k)
  }

  /** The lazy `(.*?)end` from `from`: the first `end` before the line ends. */
  function ShortestEnd(source: string, from: nat, end: string): (k: Option<nat>)
    ensures k.Some? ==> EndsAt(source, from, end, k.value)
    ensures k.Some? ==> forall j :: from <= j < k.value ==> !EndsAt(source, from, end, j)
    ensures k.None? ==> forall j :: !EndsAt(source, from, end, j)
    decreases |source| - from
  {
    if OccursAt(end, source, from) then
      Some(from)
    else if from < |source| && source[from] != '\n' then
      var k := ShortestEnd(source, from + 1, end);
      assert forall j :: EndsAt(source, from, end, j) && j != from ==> EndsAt(source, from + 1, end, j);
      k
    else
      assert forall j :: from < j && from < |source| ==> !OnOneLine(source, from, j);
      None
  }

  /** `re.search` from position `p` on: the first position with a match, and where its group ends. */
  function Search(source: string, start: string, end: string, p: nat): (m: Option<(nat, nat)>)
    ensures m.Some? ==> p <= m.value.0 && Captures(source, start, end, m.value.0, m.value.1)
    ensures m.Some? ==> forall q, k :: p <= q < m.value.0 ==> !Captures(source, start, end, q, k)
    ensures m.Some? ==> forall k :: k < m.value.1 ==> !Captures(source, start, end, m.value.0, k)
    ensures m.None? ==> forall q, k :: p <= q ==> !Captures(source, start, end, q, k)
    decreases |source| + 1 - p
  {
    if p > |source| then
      None
    else
      var e := ShortestEnd(source, p + |start|, end);
      if OccursAt(start, source, p) && e.Some? then
        Some((p, e.value))
      else
        assert forall k :: !Captures(source, start, end, p, k);
        Search(source, start, end, p + 1)
  }

  /** `get_between(source, start, end)`: the group of the first match, or `""` when there is none. */
  function GetBetween(source: string, start: string, end: string): (r: string)
    ensures '\n' !in r
  {
    match Search(source, start, end, 0)
    case None => ""
    case Some((p, k)) =>
      assert forall i :: p + |start| <= i < k ==> source[i] != '\n';
      source[p + |start|..k]
  }

  /**
   `get_between` returns `""` when no `start … end` pair sits on one line;
   otherwise it takes the leftmost match and the shortest group there, and
   `start + result + end` occurs in `source` at the match.
   */
  lemma GetBetweenSpec(source: string, start: string, end: string)
    ensures (forall p, k :: !Captures(source, start, end, p, k)) ==> GetBetween(source, start, end) == ""
    ensures (exists p, k :: Captures(source, start, end, p, k)) ==>
              exists p, k ::
                && Captures(source, start, end, p, k)
                && GetBetween(source, start, end) == source[p + |start|..k]
                && source[p..k + |end|] == start + GetBetween(source, start, end) + end
                && (forall q, j :: q < p ==> !Captures(source, start, end, q, j))
                && (forall j :: j < k ==> !Captures(source, start, end, p, j))
  {
    var m := Search(source, start, end, 0);
    NoCaptureBeforeStart(source, start, end);
    if m.Some? {
      var (p, k) := m.value;
      var g := GetBetween(source, start, end);
      CaptureSpelled(source, start, end, p, k);
      assert && Captures(source, start, end, p, k)
             && g == source[p + |start|..k]
             && source[p..k + |end|] == start + g + end
             && (forall q, j :: q < p ==> !Captures(source, start, end, q, j))
             && (forall j :: j < k ==> !Captures(source, start, end, p, j));
    }
  }

  /** No match starts before the text does. */
  lemma NoCaptureBeforeStart(source: string, start: string, end: string)
    ensures forall q, j :: q < 0 ==> !Captures(source, start, end, q, j)
  {
  }

  /** The text a match covers is `start`, the group, and `end`. */
  lemma CaptureSpelled(source: string, start: string, end: string, p: int, k: int)
    requires Captures(source, start, end, p, k)
    ensures source[p..k + |end|] == start + source[p + |start|..k] + end
  {
    assert source[p..k + |end|] == source[p..p + |start|] + source[p + |start|..k] + source[k..k + |end|];
  }

  /** The configured constants the downloader reads. */
  datatype Settings = Settings(
    baseUrl: UrlTemplate,               // BASE_URL_TEMPLATE, filled with `clothing_id`
    assetUrlStart: string,              // ROBLOX_ASSET_URL_START
    assetUrlEnd: string,                // ROBLOX_ASSET_URL_END
    imageLocationUrl: UrlTemplate,      // IMAGE_LOCATION_URL_TEMPLATE, filled with `asset_id`
    imageLocationJsonStart: string,     // IMAGE_LOCATION_JSON_START
    imageLocationJsonEnd: string)       // IMAGE_LOCATION_JSON_END

  /** `fetch(session, url)`: the body of a 200 answer; `None` for any other status or a `ClientError`. */
  function Fetch(o: Outcome): (r: Option<string>)
    ensures r.Some? <==> o.Answered? && o.response.status == 200
    ensures r.Some? ==> r.value == o.response.text
  {
    match o
    case Answered(response) => if response.status == 200 then Some(response.text) else None
    case ClientError => None
  }

  /** A fetched page that passes `if not html`: present and non-empty. */
  predicate NonEmptyPage(page: Option<string>): (b: bool)
    ensures !b <==> page == None || page == Some("")
  {
    page.Some? && page.value != ""
  }

  /** The template file `download_image` opens for an overlay type, if any. */
  function TemplateFile(overlay: string): (f: Option<string>)
    ensures f.Some? <==> overlay == "Shirt" || overlay == "Pants"
    ensures overlay == "Shirt" ==> f == Some("shirt_template.png")
    ensures overlay == "Pants" ==> f == Some("pants_template.png")
  {
    if overlay == "Shirt" then Some("shirt_template.png")
    else if overlay == "Pants" then Some("pants_template.png")
    else None
  }

  /**
   A finished `download_image`: the URLs it requested, in order, and the image
   it handed to `FileHandler.save_image`, if it got that far.
   */
  datatype Download<Img> = Download(requested: seq<string>, saved: Option<SavedImage<Img>>)

  /**
   `download_image(clothing_id, overlay_type)`. The three answers the
   downloader gets are parameters: the asset-delivery page, the image-location
   page, and the decoded image `fetch_image` returns (`None` when that fetch
   fails). `open` stands for `Image.open` and `compose` for
   `Image.alpha_composite` of both images converted to RGBA.
   */
  function DownloadImage<Img>(settings: Settings, clothingId: string, overlay: Option<string>,
                              html: Outcome, location: Outcome, image: Option<Img>,
                              open: string -> Img, compose: (Img, Img) -> Img): (d: Download<Img>)
    ensures 1 <= |d.requested| <= 3
    ensures d.requested[0] == settings.baseUrl.Format(clothingId)
    ensures d.saved.Some? <==>
              && NonEmptyPage(Fetch(html))
              && GetBetween(Fetch(html).value, settings.assetUrlStart, settings.assetUrlEnd) != ""
              && NonEmptyPage(Fetch(location))
              && image.Some?
    ensures |d.requested| >= 2 <==>
              && NonEmptyPage(Fetch(html))
              && GetBetween(Fetch(html).value, settings.assetUrlStart, settings.assetUrlEnd) != ""
    ensures |d.requested| >= 2 ==>
              d.requested[1] == settings.imageLocationUrl.Format(GetBetween(Fetch(html).value, settings.assetUrlStart, settings.assetUrlEnd))
    ensures |d.requested| == 3 <==>
              && NonEmptyPage(Fetch(html))
              && GetBetween(Fetch(html).value, settings.assetUrlStart, settings.assetUrlEnd) != ""
              && NonEmptyPage(Fetch(location))
    ensures |d.requested| == 3 ==>
              d.requested[2] == GetBetween(Fetch(location).value, settings.imageLocationJsonStart, settings.imageLocationJsonEnd)
    ensures d.saved.Some? ==> d.saved.value.filename == clothingId + ".png"
    ensures d.saved.Some? ==>
              d.saved.value.image ==
                if overlay.Some? && TemplateFile(overlay.value).Some? then compose(image.value, open(TemplateFile(overlay.value).value))
                else image.value
  {
    var baseUrl := settings.baseUrl.Format(clothingId);
    var page := Fetch(html);
    if !NonEmptyPage(page) then Download([baseUrl], None)
    else
      var assetId := GetBetween(page.value, settings.assetUrlStart, settings.assetUrlEnd);
      if assetId == "" then Download([baseUrl], None)
      else
        var locationUrl := settings.imageLocationUrl.Format(assetId);
        var locationPage := Fetch(location);
        if !NonEmptyPage(locationPage) then Download([baseUrl, locationUrl], None)
        else
          // `imageloc` is requested whatever it is, even `""`.
          var imageLoc := GetBetween(locationPage.value, settings.imageLocationJsonStart, settings.imageLocationJsonEnd);
          match image
          case None => Download([baseUrl, locationUrl, imageLoc], None)
          case Some(img) =>
            var template := if overlay.Some? && overlay.value != "" then TemplateFile(overlay.value) else None;
            var result := if template.Some? then compose(img, open(template.value)) else img;
            Download([baseUrl, locationUrl, imageLoc], Some(SavedImage(result, clothingId + ".png")))
  }

  /**
   What `str.strip()` removes from ASCII text: space, tab, line feed, vertical
   tab, form feed, carriage return, and the separators 0x1c to 0x1f.
   */
  predicate IsSpace(c: char) {
    c == ' ' || c == '\t' || c == '\n' || c == '\r' || c as int == 0x0b || c as int == 0x0c || 0x1c <= c as int <= 0x1f
  }

  /** How many `IsSpace` characters `s` starts with. */
  function LeadingSpaces(s: string): (n: nat)
    ensures n <= |s|
    ensures forall i :: 0 <= i < n ==> IsSpace(s[i])
    ensures n < |s| ==> !IsSpace(s[n])
    decreases |s|
  {
    if s != [] && IsSpace(s[0]) then
      var n := 1 + LeadingSpaces(s[1..]);
      assert forall i :: 1 <= i < n ==> s[i] == s[1..][i - 1];
      n
    else 0
  }

  /** How many `IsSpace` characters `s` ends with. */
  function TrailingSpaces(s: string): (n: nat)
    ensures n <= |s|
    ensures forall i :: |s| - n <= i < |s| ==> IsSpace(s[i])
    ensures n < |s| ==> !IsSpace(s[|s| - n - 1])
    decreases |s|
  {
    if s != [] && IsSpace(s[|s| - 1]) then
      var n := 1 + TrailingSpaces(s[..|s| - 1]);
      assert forall i :: |s| - n <= i < |s| - 1 ==> s[i] == s[..|s| - 1][i];
      n
    else 0
  }

  /**
   `str.strip()` for ASCII text: the stretch of `s` left after dropping the
   spaces in front and behind, which neither starts nor ends with a space.
   */
  function Strip(s: string): (r: string)
    ensures |r| <= |s|
    ensures r != [] ==> !IsSpace(r[0]) && !IsSpace(r[|r| - 1])
    ensures exists a, b ::
              && 0 <= a <= b <= |s| && r == s[a..b]
              && (forall i :: 0 <= i < a ==> IsSpace(s[i]))
              && (forall i :: b <= i < |s| ==> IsSpace(s[i]))
  {
    var a := LeadingSpaces(s);
    var k := TrailingSpaces(s[a..]);
    var b := |s| - k;
    assert forall i :: b <= i < |s| ==> s[i] == s[a..][i - a];
    s[a..b]
  }

  /** A string that neither starts nor ends with a space is left as it is. */
  lemma StripUnpadded(s: string)
    requires s == [] || (!IsSpace(s[0]) && !IsSpace(s[|s| - 1]))
    ensures Strip(s) == s
  {
    var a := LeadingSpaces(s);
    assert a == 0;
    assert s[a..] == s;
  }

  /** `overlay_choice.strip() if overlay_choice in ["Shirt", "Pants"] else None`. */
  function OverlayChoice(raw: string): (choice: Option<string>)
    ensures choice.Some? <==> raw == "Shirt" || raw == "Pants"
    ensures choice.Some? ==> choice.value == raw
  {
    if raw == "Shirt" || raw == "Pants" then
      StripUnpadded(raw);
      Some(Strip(raw))
    else None
  }

  /** What `main` does with the two lines it reads. */
  datatype MainAction = InvalidInput | StartDownload(clothingId: string, overlay: Option<string>)

  /** `main`: keep the digits of the id; ask for an overlay only when some digit remains. */
  function Main(rawId: string, rawOverlay: string): (a: MainAction)
    ensures a.InvalidInput? <==> Digits(rawId) == ""
    ensures a.StartDownload? ==> a.clothingId == Digits(rawId)
    ensures a.StartDownload? ==> (a.overlay.Some? <==> rawOverlay == "Shirt" || rawOverlay == "Pants")
    ensures a.StartDownload? && a.overlay.Some? ==> a.overlay.value == rawOverlay
  {
    var clothingId := Digits(rawId);
    if clothingId != "" then StartDownload(clothingId, OverlayChoice(rawOverlay)) else InvalidInput
  }

  /**
   Every overlay `main` accepts selects a template, so a download started by
   `main` with an overlay always composes the image with it.
   */
  lemma AcceptedOverlaySelectsTemplate(rawId: string, rawOverlay: string)
    ensures var a := Main(rawId, rawOverlay);
            a.StartDownload? && a.overlay.Some? ==> a.overlay.value != "" && TemplateFile(a.overlay.value).Some?
  {
  }

  /**
   A download that `main` starts saves `<digits of the id>.png`, composed with
   the shirt template for the answer `Shirt`, with the pants template for
   `Pants`, and left as it is for any other answer.
   */
  lemma MainThenDownload<Img>(rawId: string, rawOverlay: string, settings: Settings, html: Outcome, location: Outcome,
                              img: Img, open: string -> Img, compose: (Img, Img) -> Img)
    ensures var a := Main(rawId, rawOverlay);
            var d := if a.StartDownload? then DownloadImage(settings, a.clothingId, a.overlay, html, location, Some(img), open, compose)
                     else Download([], None);
            a.StartDownload? && d.saved.Some? ==>
              && d.saved.value.filename == Digits(rawId) + ".png"
              && d.saved.value.image ==
                   if rawOverlay == "Shirt" then compose(img, open("shirt_template.png"))
                   else if rawOverlay == "Pants" then compose(img, open("pants_template.png"))
                   else img
  {
  }

  /** A padded or differently cased overlay answer is dropped, not cleaned up. */
  lemma PaddedOverlayDropped()
    ensures OverlayChoice(" Shirt") == None
    ensures OverlayChoice("Pants ") == None
    ensures OverlayChoice("shirt") == None
  {
  }
}

=== FILE: strings.dfy ===
/**
 Character and string operations the scraper relies on: the `[^0-9]` filter,
 substring membership (`needle in hay`), ASCII case mapping for `lower()` and
 `capitalize()`, and Python's `str()` of an integer.
 */
module Strings {

  predicate IsDigit(c: char) {
    '0' <= c <= '9'
  }

  /** `re.sub(r"[^0-9]", "", s)`: the characters of `s` in the class [0-9], in their original order. */
  function Digits(s: string): (r: string)
    ensures |r| <= |s|
    ensures forall i :: 0 <= i < |r| ==> IsDigit(r[i])
  {
    if s == [] then []
    else (if IsDigit(s[0]) then [s[0]] else []) + Digits(s[1..])
  }

  /** The filter distributes over concatenation, so it keeps the digits in their original order. */
  lemma {:induction false} DigitsAppend(a: string, b: string)
    ensures Digits(a + b) == Digits(a) + Digits(b)
  {
    if a == [] {
      assert a + b == b;
    } else {
      assert (a + b)[0] == a[0];
      assert (a + b)[1..] == a[1..] + b;
      DigitsAppend(a[1..], b);
    }
  }

  /** Every digit of `s` survives as often as it occurs, and nothing else does. */
  lemma {:induction false} DigitsKeepsExactlyDigits(s: string)
    ensures forall c :: multiset(Digits(s))[c] == if IsDigit(c) then multiset(s)[c] else 0
  {
    if s != [] {
      DigitsKeepsExactlyDigits(s[1..]);
      assert s == [s[0]] + s[1..];
      assert multiset(s) == multiset{s[0]} + multiset(s[1..]);
    }
  }

  /** The filter changes nothing exactly when the input is all digits. */
  lemma {:induction false} DigitsFixedPoint(s: string)
    ensures Digits(s) == s <==> forall i :: 0 <= i < |s| ==> IsDigit(s[i])
  {
    if s != [] {
      DigitsFixedPoint(s[1..]);
      if !IsDigit(s[0]) {
        assert |Digits(s)| < |s|;
      }
    }
  }

  /** `needle` occurs in `hay` starting at index `i`. */
  predicate OccursAt(needle: string, hay: string, i: int) {
    0 <= i && i + |needle| <= |hay| && hay[i..i + |needle|] == needle
  }

  lemma OccursShift(needle: string, hay: string, i: int)
    requires hay != [] && 0 <= i
    ensures OccursAt(needle, hay[1..], i) <==> OccursAt(needle, hay, i + 1)
  {
    if 0 <= i && i + |needle| <= |hay| - 1 {
      assert hay[1..][i..i + |needle|] == hay[i + 1..i + 1 + |needle|];
    }
  }

  /** Python's `needle in hay` on strings: a scan from the left. */
  function Contains(needle: string, hay: string): (r: bool)
    ensures r <==> exists i :: OccursAt(needle, hay, i)
    decreases |hay|
  {
    if |needle| <= |hay| && hay[..|needle|] == needle then
      assert OccursAt(needle, hay, 0);
      true
    else if hay == [] then
      false
    else
      var rest := Contains(needle, hay[1..]);
      assert rest ==> OccursAt(needle, hay, 1 + ShiftWitness(needle, hay[1..]));
      assert (exists i :: OccursAt(needle, hay, i)) ==> rest by {
        if exists i :: OccursAt(needle, hay, i) {
          var i :| OccursAt(needle, hay, i);
          assert i != 0;
          OccursShift(needle, hay, i - 1);
        }
      }
      rest
  }

  /** Some index at which `needle` occurs in `hay`, when there is one. */
  ghost function ShiftWitness(needle: string, hay: string): (i: int)
    ensures (exists j :: OccursAt(needle, hay, j)) ==> OccursAt(needle, hay, i)
  {
    if exists j :: OccursAt(needle, hay, j) then var j :| OccursAt(needle, hay, j); j else 0
  }

  /** `str.lower()` on one character, for the ASCII range. */
  function LowerChar(c: char): char {
    if 'A' <= c <= 'Z' then (c as int - 'A' as int + 'a' as int) as char else c
  }

  /** `str.upper()` on one character, for the ASCII range. */
  function UpperChar(c: char): char {
    if 'a' <= c <= 'z' then (c as int - 'a' as int + 'A' as int) as char else c
  }

  /** `str.lower()` for ASCII text. */
  function Lower(s: string): (r: string)
    ensures |r| == |s|
    ensures forall i :: 0 <= i < |r| ==> !('A' <= r[i] <= 'Z')
    ensures forall i :: 0 <= i < |s| && !('A' <= s[i] <= 'Z') ==> r[i] == s[i]
    ensures forall i :: 0 <= i < |s| && 'A' <= s[i] <= 'Z' ==> r[i] as int == s[i] as int + 32
  {
    seq(|s|, i requires 0 <= i < |s| => LowerChar(s[i]))
  }

  /** Text without upper-case letters is its own lower-case form. */
  lemma LowerOfLowerCase(s: string)
    requires forall i :: 0 <= i < |s| ==> !('A' <= s[i] <= 'Z')
    ensures Lower(s) == s
  {
  }

  /**
   `str.capitalize()` for ASCII text: the result spells the same word up to
   case, starts with no lower-case letter and has no upper-case letter after
   the first.
   */
  function Capitalize(s: string): (r: string)
    ensures |r| == |s|
    ensures SameIgnoringCase(r, s)
    ensures s != [] ==> !('a' <= r[0] <= 'z')
    ensures forall i :: 1 <= i < |r| ==> !('A' <= r[i] <= 'Z')
  {
    if s == [] then []
    else
      var r := [UpperChar(s[0])] + Lower(s[1..]);
      assert forall i :: 1 <= i < |r| ==> r[i] == Lower(s[1..])[i - 1];
      r
  }

  /** A word with no upper-case letter after the first capitalizes to its first letter upper-cased, the rest kept. */
  lemma CapitalizeLowerWord(s: string)
    requires s != [] && forall i :: 1 <= i < |s| ==> !('A' <= s[i] <= 'Z')
    ensures Capitalize(s) == [UpperChar(s[0])] + s[1..]
  {
    LowerOfLowerCase(s[1..]);
  }

  /** `a` and `b` spell the same word up to ASCII letter case. */
  ghost predicate SameIgnoringCase(a: string, b: string) {
    |a| == |b| && forall i :: 0 <= i < |a| ==> LowerChar(a[i]) == LowerChar(b[i])
  }

  /** Comparing lower-cased strings is exactly case-insensitive comparison. */
  lemma LowerEqIff(a: string, b: string)
    ensures Lower(a) == Lower(b) <==> SameIgnoringCase(a, b)
  {
    if SameIgnoringCase(a, b) {
      assert forall i :: 0 <= i < |a| ==> Lower(a)[i] == Lower(b)[i];
    }
    if Lower(a) == Lower(b) {
      assert forall i :: 0 <= i < |a| ==> LowerChar(a[i]) == Lower(a)[i] == Lower(b)[i] == LowerChar(b[i]);
    }
  }

  function DigitChar(d: nat): (c: char)
    requires d < 10
    ensures IsDigit(c)
  {
    ('0' as int + d) as char
  }

  function DigitValue(c: char): nat
    requires IsDigit(c)
  {
    c as int - '0' as int
  }

  /** Python's `str(n)` for a natural number: decimal digits, most significant first. */
  function NatToString(n: nat): (r: string)
    ensures r != []
    ensures forall i :: 0 <= i < |r| ==> IsDigit(r[i])
    ensures |r| > 1 ==> r[0] != '0'
    decreases n
  {
    if n < 10 then [DigitChar(n)] else NatToString(n / 10) + [DigitChar(n % 10)]
  }

  /** The value of a string of decimal digits. */
  function ParseDigits(s: string): nat
    requires forall i :: 0 <= i < |s| ==> IsDigit(s[i])
  {
    if s == [] then 0 else ParseDigits(s[..|s| - 1]) * 10 + DigitValue(s[|s| - 1])
  }

  /** Reading back what `str(n)` printed gives `n`. */
  lemma {:induction false} ParseNatToString(n: nat)
    ensures ParseDigits(NatToString(n)) == n
    decreases n
  {
    var r := NatToString(n);
    if n >= 10 {
      assert r[..|r| - 1] == NatToString(n / 10);
      ParseNatToString(n / 10);
    }
  }

  /** Python's `str(i)` for an integer. */
  function IntToString(i: int): (r: string)
    ensures r != []
    ensures i >= 0 ==> Digits(r) == r
    ensures i >= 0 ==> (forall k :: 0 <= k < |r| ==> IsDigit(r[k])) && ParseDigits(r) == i
    ensures i < 0 ==> r[0] == '-'
  {
    if i < 0 then "-" + NatToString(-i)
    else
      DigitsFixedPoint(NatToString(i));
      ParseNatToString(i);
      NatToString(i)
  }
}
